=== FILE: README.md ===
# ServerBus schedule synchronisation, modelled in Dafny

ServerBus is a plugin that serves a SQLite database of Grodno's bus and trolleybus timetables
(`grodno_bus.db`). Once an hour it fetches the date of the site's latest timetable change and
compares it with the date in its marker file. When the two differ it does one of two things:

- **Full build.** With no database file yet, it builds a new one from scratch in
  `grodno_bus_temp.db`:
  - the transport categories;
  - the bus and trolleybus route numbers;
  - the stops of each route;
  - every stop's timetable.
- **Incremental patch.** Otherwise it first asks the site which routes of which category
  changed. When none are listed it touches no file. When some are, it copies the database to the
  temp file; on the copy it deletes each listed route, with its stations and their time rows,
  then inserts each again from the scraped stops and timetables.

When every statement has run, the final file is deleted and the temp file is renamed onto it.
After that, the marker is written.

The model has these layers:

- `Tables`: the four tables (`Category`, `Bus`, `Station`, `BusTime`) as a value with
  AUTOINCREMENT counters, the INSERT/SELECT/DELETE statements as functions, and the
  integrity invariant `Consistent`.
- `TableLemmas`: what each statement keeps.
- `Store.Database`: the JDBC connection, as a class whose methods reassign its sequence fields.
- `Steps`, `Build` and `Patch`: the statement loops as functions on a database value. The
  theorems say what the full build and the patch leave in the tables.
- `Writer`: the same loops as methods with `while` loops over a `Store.Database`. Each is
  proved to reach the database its specifying function computes and to throw exactly when that
  function says.
- `Plugin`: the files (final, temp, marker) and the hourly check, as functions, as a class
  `Plugin.Plugin` whose methods update them step by step, and lemmas about the cycle.

A `SELECT` without `ORDER BY` is modelled as a scan in rowid order that takes the first matching
row. A scraped listing or a stop timetable becomes an input: a `Result` holding the list or the
exception its fetch threw. The site is taken not to change during one cycle.

A sync could advance the marker only after a successful swap, rebuild a missing database at once
and always keep a database to serve. The code does not do all of that, and the model follows the
code:

- The marker is written whenever the date differs, even when the patch or the build failed, and
  even when no changes were listed (lines 78-81). It is not advanced only after a successful swap.
- The marker comparison comes first: a missing database file is rebuilt only on a cycle whose
  date differs (lines 78-80 and 159-163).
- A failed `renameTo` after the final file was deleted leaves no final file (lines 294-298,
  477-481). The database being served is not kept.
- A category the database does not hold ends the patch without deleting the temp copy
  (lines 204-208). A failed connection does the same (lines 190-195, 337-342).
- Deleted routes lose their stations and time rows only through the program's explicit DELETE
  statements (lines 224-240). SQLite's `ON DELETE CASCADE` is declared but never switched on.

## Model

| member | source | states |
|---|---|---|
| Numbers.ParseNumber | src/main/kotlin/MyPlugin.kt:246-248 | `toInt` succeeds exactly when `ToInt` gives a value, yields that value, and otherwise throws NumberFormatException |
| Numbers.ToInt | src/main/kotlin/MyPlugin.kt:248 | a string parses only if it is decimal digits, or a sign followed by at least one digit; each such string parses exactly when its value fits in 32 bits, and to that value (negated after `-`) |
| Numbers.ToIntExamples | src/main/kotlin/MyPlugin.kt:248 | leading zeros and a `+` are accepted, `-0` is 0, and a lone sign, the empty string and a trailing letter are rejected |
| Numbers.ToIntShow | src/main/kotlin/MyPlugin.kt:248 | every 32-bit route number written in decimal parses back to itself |
| Tables.FindCategory | src/main/kotlin/MyPlugin.kt:201-208 | the category lookup returns the first row, in rowid order, with that name, or none exists |
| Tables.FindBus | src/main/kotlin/MyPlugin.kt:213-221 | the route lookup returns the first row, in rowid order, with that number under that category, or none exists |
| Tables.StationsOf | src/main/kotlin/MyPlugin.kt:272 | the stations of a route are exactly the rows whose Bus_id is the route's id |
| Tables.WithNumber | src/main/kotlin/MyPlugin.kt:260 | the filtered stops are exactly the scraped stops whose number string equals the listed one |
| Tables.WithoutTimesOf | src/main/kotlin/MyPlugin.kt:224-229 | the time rows left are exactly those whose station is not one of the route's |
| Tables.WithoutStationsOf | src/main/kotlin/MyPlugin.kt:230-235 | the stations left are exactly those of other routes |
| Tables.WithoutBus | src/main/kotlin/MyPlugin.kt:236-241 | the routes left are exactly those with another id |
| Tables.InsertCategory | src/main/kotlin/MyPlugin.kt:383-387 | a category INSERT appends one row with the next id and the name, bumps that counter and changes nothing else |
| Tables.InsertBus | src/main/kotlin/MyPlugin.kt:246-251 | a route INSERT appends one row with the next id, the category and the number, bumps that counter and changes nothing else |
| Tables.InsertStation | src/main/kotlin/MyPlugin.kt:262-269 | a station INSERT appends one row with the next id and the scraped stop under the route, bumps that counter and changes nothing else |
| Tables.InsertTime | src/main/kotlin/MyPlugin.kt:278-285 | a time INSERT appends one row with the next id and the line under the station, bumps that counter and changes nothing else |
| Tables.DeleteBus | src/main/kotlin/MyPlugin.kt:224-241 | the three DELETE statements keep exactly the routes with another id, the stations of other routes and the time rows of stations not on the route; the counters are kept |
| TableLemmas.InsertCategoryConsistent | src/main/kotlin/MyPlugin.kt:382-388 | a category INSERT keeps the tables consistent and adds the next id |
| TableLemmas.InsertBusConsistent | src/main/kotlin/MyPlugin.kt:246-251 | a route INSERT under a live category keeps the tables consistent and adds the next id |
| TableLemmas.InsertStationConsistent | src/main/kotlin/MyPlugin.kt:262-269 | a station INSERT under a live route keeps the tables consistent and adds the next id |
| TableLemmas.InsertTimeConsistent | src/main/kotlin/MyPlugin.kt:278-285 | a time INSERT under a live station keeps the tables consistent |
| TableLemmas.DeleteBusConsistent | src/main/kotlin/MyPlugin.kt:224-241 | the three DELETE statements keep the tables consistent (no orphaned station or time row), remove the route's id and keep every other route |
| TableLemmas.DeleteBusFrame | src/main/kotlin/MyPlugin.kt:224-241 | after the three DELETE statements the route has no stations, and every other route keeps its stations and their time rows |
| Store.Database.Create | src/main/kotlin/MyPlugin.kt:337-377 | a connection to a new file holds the four empty tables after CREATE TABLE |
| Store.Database.Open | src/main/kotlin/MyPlugin.kt:190-191 | a connection to the copied file holds exactly the copied tables |
| Store.Database.InsertCategory | src/main/kotlin/MyPlugin.kt:383-387 | the method appends the row the INSERT statement adds and bumps the counter |
| Store.Database.InsertBus | src/main/kotlin/MyPlugin.kt:246-251 | the method appends the row the INSERT statement adds and bumps the counter |
| Store.Database.InsertStation | src/main/kotlin/MyPlugin.kt:262-269 | the method appends the row the INSERT statement adds and bumps the counter |
| Store.Database.InsertTime | src/main/kotlin/MyPlugin.kt:278-285 | the method appends the row the INSERT statement adds and bumps the counter |
| Store.Database.DeleteBus | src/main/kotlin/MyPlugin.kt:224-241 | the method leaves the tables the three DELETE statements leave |
| Steps.InsertTimes | src/main/kotlin/MyPlugin.kt:277-285 | one station's timetable adds one time row per line and changes only the time table and its counter |
| Steps.InsertStations | src/main/kotlin/MyPlugin.kt:261-270 | the stop loop adds one station per scraped stop and changes only the station table and its counter |
| Steps.InsertTimesForFrame | src/main/kotlin/MyPlugin.kt:272-288 | the timetable loop changes only the time table and its counter |
| Steps.InsertTimesFor | src/main/kotlin/MyPlugin.kt:272-288 | the timetable loop completes exactly when every station's fetch succeeds |
| Steps.InsertTimesAppends | src/main/kotlin/MyPlugin.kt:277-285 | a station's time rows grow by exactly the fetched lines, in order |
| Steps.InsertTimesOthers | src/main/kotlin/MyPlugin.kt:277-285 | inserting one station's timetable leaves every other station's time rows alone |
| Steps.InsertTimesForEffect | src/main/kotlin/MyPlugin.kt:456-472 | after the timetable loop each station holds its previous rows plus exactly what its link's fetch returned; other stations and the other tables are unchanged, and the tables stay consistent |
| Steps.InsertStationsAppends | src/main/kotlin/MyPlugin.kt:261-270 | the route's stops grow by exactly the given scraped stops, in order |
| Steps.InsertStationsOthers | src/main/kotlin/MyPlugin.kt:261-270 | other routes' stations are untouched |
| Steps.InsertStationsConsistent | src/main/kotlin/MyPlugin.kt:261-270 | inserting stations under a live route keeps the tables consistent |
| Build.InsertCategories | src/main/kotlin/MyPlugin.kt:381-388 | the category loop adds one row per scraped name, each named by one of them, and changes only the category table and its counter |
| Build.Populate | src/main/kotlin/MyPlugin.kt:381-472 | the full build throws the name listing's failure, throws on a missing bus or trolleybus category, and completes only when every listing was fetched and every scraped number parses |
| Build.InsertBuses | src/main/kotlin/MyPlugin.kt:398-416 | the number loop completes exactly when every scraped number parses |
| Build.InsertMatchedStations | src/main/kotlin/MyPlugin.kt:418-454 | the stop loop completes exactly when every scraped stop's number parses |
| Build.InsertCategoriesEffect | src/main/kotlin/MyPlugin.kt:381-388 | the category names are appended in scraped order, only the category table changes, and consistency is kept |
| Build.InsertBusesNumbers | src/main/kotlin/MyPlugin.kt:398-416 | the numbers under the category grow by exactly the parsed scraped numbers, in order |
| Build.InsertBusesOthers | src/main/kotlin/MyPlugin.kt:398-416 | the numbers under any other category are unchanged |
| Build.InsertBusesFrame | src/main/kotlin/MyPlugin.kt:398-416 | only the route table changes; every new route is under the category with a fresh id; consistency is kept |
| Build.InsertMatchedFrame | src/main/kotlin/MyPlugin.kt:418-454 | only the station table changes; every new station belongs to a route of the category; consistency is kept |
| Build.InsertMatchedPerRoute | src/main/kotlin/MyPlugin.kt:419-435 | the route the lookup finds for its number gets exactly the scraped stops with that number, in order |
| Build.InsertMatchedOthers | src/main/kotlin/MyPlugin.kt:419-435 | routes of other categories get no stations |
| Build.FullBuildNumbers | src/main/kotlin/MyPlugin.kt:381-416 | a completed full build holds the scraped category names in order, and under the bus and trolleybus categories exactly the scraped numbers, in order |
| Build.FullBuildStops | src/main/kotlin/MyPlugin.kt:418-454 | when neither number listing repeats a value, a completed full build gives every route exactly the scraped stops of its kind with its number, in order; a stop whose number has no route is stored nowhere |
| Build.NoRepeatsUnique | src/main/kotlin/MyPlugin.kt:398-416 | when the numbers stored under a category do not repeat, no two of its route rows share a number |
| Build.FullBuildUnique | src/main/kotlin/MyPlugin.kt:398-416 | a completed full build from number listings that repeat no value holds one route per (category, number) |
| Build.FullBuildTimes | src/main/kotlin/MyPlugin.kt:456-472 | a completed full build gives every station exactly the timetable fetched for its link |
| Build.FullBuildFrames | src/main/kotlin/MyPlugin.kt:344-472 | every stage of the full build keeps the tables consistent and changes only its own table |
| Patch.InsertRoute | src/main/kotlin/MyPlugin.kt:246-288 | one turn of the insert loop throws NumberFormatException on a number that does not parse, and completes only when the number parses and the route listing was fetched |
| Patch.InsertPhase | src/main/kotlin/MyPlugin.kt:245-289 | the insert loop completes only when every listed number parses |
| Patch.Update | src/main/kotlin/MyPlugin.kt:197-289 | the patch reports a missing category exactly when no category has the name, and completes only when every listed number parses |
| Patch.DeletePhase | src/main/kotlin/MyPlugin.kt:212-243 | the delete loop completes exactly when every listed number parses, and otherwise throws NumberFormatException |
| Patch.DeletePhaseEffect | src/main/kotlin/MyPlugin.kt:212-243 | on any consistent tables the delete loop keeps consistency, the categories and all four counters, only removes route, station and time rows, and keeps every untargeted route with its stations and time rows; with one route per (category, number) it also removes every targeted route with its stations and keeps the pairs unique |
| Patch.InsertRouteFrame | src/main/kotlin/MyPlugin.kt:246-288 | on any consistent tables one turn of the insert loop keeps consistency and the categories, and appends one route row with the next id and the parsed number |
| Patch.InsertRouteKeeps | src/main/kotlin/MyPlugin.kt:246-288 | one turn of the insert loop leaves every route with another (category, number) its stations and time rows |
| Patch.InsertRouteStations | src/main/kotlin/MyPlugin.kt:261-270 | one turn of the insert loop only adds stations, each with an id above the old counter |
| Patch.InsertRouteEffect | src/main/kotlin/MyPlugin.kt:245-288 | when no route with the listed number is under the category yet (as the delete phase leaves it for unique pairs), inserting the number adds one route with the next id, holding exactly the scraped stops with that number and their fetched timetables; every route already there is unchanged |
| Patch.InsertPhaseEffect | src/main/kotlin/MyPlugin.kt:245-289 | after deletion, with no number listed twice, every listed number gets a new route that the lookup finds and that holds exactly its scraped stops and fetched timetables; old routes are unchanged; unique (category, number) pairs stay unique |
| Patch.InsertPhaseFrame | src/main/kotlin/MyPlugin.kt:245-289 | on any consistent tables the insert loop keeps consistency and appends only rows with fresh ids under the category with a listed number, and every untargeted route keeps its stations and time rows |
| Patch.InsertPhaseStations | src/main/kotlin/MyPlugin.kt:245-289 | the insert loop only adds stations, each with an id above the old counter |
| Patch.UpdateOutcome | src/main/kotlin/MyPlugin.kt:198-216 | the patch stops with "category not found" exactly when no category has that name, and throws on a listed number that does not parse |
| Patch.UpdateEffect | src/main/kotlin/MyPlugin.kt:197-289 | with one route per (category, number) and no number listed twice, a completed patch replaces every listed route of the category with a fresh one holding the scraped stops and timetables; the old rows' stations and time rows are gone; every other route, its stations and time rows are as they were; every row afterwards is one of these; the pairs stay unique |
| Patch.UpdateFrame | src/main/kotlin/MyPlugin.kt:197-289 | on any consistent tables a completed patch keeps consistency and the categories, keeps every untargeted route with its stations and time rows, and adds only rows with fresh ids under the category with a listed number |
| Writer.InsertTimes | src/main/kotlin/MyPlugin.kt:277-285 | the loop leaves the table its specification computes |
| Writer.InsertTimesFor | src/main/kotlin/MyPlugin.kt:272-288 | the loop leaves the tables its specification computes, or throws what it says |
| Writer.InsertStations | src/main/kotlin/MyPlugin.kt:261-270 | the loop leaves the table its specification computes |
| Writer.InsertCategories | src/main/kotlin/MyPlugin.kt:381-388 | the loop leaves the table its specification computes |
| Writer.InsertBuses | src/main/kotlin/MyPlugin.kt:398-406 | the loop leaves the table its specification computes, or throws what it says |
| Writer.InsertMatchedStations | src/main/kotlin/MyPlugin.kt:418-435 | the loop leaves the table its specification computes, or throws what it says |
| Writer.Populate | src/main/kotlin/MyPlugin.kt:381-472 | the full build's statements leave the database `Build.Populate` computes, or throw what it says |
| Writer.DeletePhase | src/main/kotlin/MyPlugin.kt:212-243 | the delete loop leaves the database `Patch.DeletePhase` computes, or throws what it says |
| Writer.InsertRoute | src/main/kotlin/MyPlugin.kt:246-288 | one turn of the insert loop leaves the database `Patch.InsertRoute` computes, or throws what it says |
| Writer.InsertPhase | src/main/kotlin/MyPlugin.kt:245-289 | the insert loop leaves the database `Patch.InsertPhase` computes, or throws what it says |
| Writer.Update | src/main/kotlin/MyPlugin.kt:197-289 | the statements on the copy end as `Patch.Update` says; a missing category changes nothing |
| Plugin.Plugin.Swap | src/main/kotlin/MyPlugin.kt:477-481 | deleting the final file and renaming the temp file installs the build, or leaves no final file when the rename fails |
| Plugin.Plugin.PerformFullParse | src/main/kotlin/MyPlugin.kt:314-495 | the file slots change as the full parse specifies |
| Plugin.Plugin.ParseAndSaveToDb | src/main/kotlin/MyPlugin.kt:152-311 | the file slots change as the save specifies |
| Plugin.Plugin.CheckAndUpdateIfNeeded | src/main/kotlin/MyPlugin.kt:71-89 | the files and the marker change as one cycle specifies |
| Plugin.StoredDate | src/main/kotlin/MyPlugin.kt:107-117 | the stored date is the marker when it is read, and null when it cannot be read or is absent |
| Plugin.Install | src/main/kotlin/MyPlugin.kt:294-298 | the swap leaves the build as the final file and no temp file, or, when the rename fails, no final file and the build in the temp file; the marker is untouched |
| Plugin.FullParse | src/main/kotlin/MyPlugin.kt:314-495 | the full parse never writes the marker, changes the final file only to a completed build (or loses it on a failed rename), and deletes the temp file when the build throws (taking that delete to succeed) |
| Plugin.SaveToDb | src/main/kotlin/MyPlugin.kt:152-311 | neither the build nor the patch writes the marker, and with a final file and no changed route listed no file is touched |
| Plugin.NeedsUpdate | src/main/kotlin/MyPlugin.kt:78 | no fetched date never triggers the sync, and a fetched date triggers it exactly when it differs from the stored one, including when none is stored |
| Plugin.Cycle | src/main/kotlin/MyPlugin.kt:71-89 | a cycle whose date is absent or unchanged changes nothing, and the marker afterwards is the old one or the fetched date |
| Plugin.CycleMarker | src/main/kotlin/MyPlugin.kt:78-85 | a cycle touches a file only when the fetched date is present and differs from the stored one; then the marker holds the fetched date (when it can be written) whatever the build or patch did |
| Plugin.FullParseIgnoresChanges | src/main/kotlin/MyPlugin.kt:159-163 | without a final file, the result does not depend on the listed changes |
| Plugin.FinalOnlyFromBuilt | src/main/kotlin/MyPlugin.kt:291-311 | the final file changes only to a successfully built database, or disappears when the rename fails |
| Plugin.BuiltInstalled | src/main/kotlin/MyPlugin.kt:291-299 | when every file call succeeds, a successful build or patch becomes the final file and no temp file remains |
| Plugin.FailureIsolated | src/main/kotlin/MyPlugin.kt:300-311 | a build or patch that throws leaves the final file as it was and deletes the temp file (taking that delete to succeed) |
| Plugin.CategoryMissingKeepsFinal | src/main/kotlin/MyPlugin.kt:198-209 | an unknown category leaves the final file as it was and the unchanged copy in the temp file |
| Plugin.PatchCycleKeepsOthers | src/main/kotlin/MyPlugin.kt:197-299 | a cycle that installs a patch of consistent tables serves consistent tables; every untargeted route keeps its row, stations and time rows, and every other row is new and targeted; with one route per (category, number) and no number listed twice, every targeted old row is gone and the pairs stay unique |

## Left out

- The Ktor server, the `/download-db` endpoint, plugin start and stop, and the hourly coroutine
  loop are left out. They are I/O and concurrency.
- The Jsoup scraping in `Parse`, `fetchUpdateDate` and `fetchChangedRoutes` is left out. Its
  results are inputs to the model: the date as an `Option`, the changes as an `Option`, and each
  listing as a `Result`. The date regular expression and the day filter are not part of this
  model.
- A scraped listing fetched twice is taken to give the same answer both times. The patch fetches
  the route listing once per listed number; the model has it fetched once per cycle.
- Each file-system or driver call is modelled only by whether it succeeds, as an `Env` flag.
  This covers driver registration, copy, create, connect, rename, and marker read and write.
  The three kinds of `delete()` whose result the code ignores are covered by the next three lines.
- Plugin.Install: `finalDbFile.delete()` reports failure only by its result, which is ignored
  (lines 294-296, 477-479). The model takes that delete to succeed, so only `renameOk` decides
  whether the build is installed. A failed delete followed by a failed rename, which would keep
  the old final file, is not modelled.
- Plugin.FullParse: when deleting a leftover temp file fails (lines 325-328), `createNewFile`
  returns false without throwing, and the build runs on the leftover file with its old tables.
  The model always builds on a new, empty file.
- Plugin.FullParse, Plugin.SaveToDb, Plugin.FailureIsolated: after an exception the catch blocks
  call `tempDbFile.delete()` and ignore its result (lines 307-310, 490-493). The model takes that
  delete to succeed and leaves no temp file. A failed delete would leave the temp file in place,
  holding the partly built or partly patched tables; the next full parse tries to delete it
  again first.
- Plugin.Plugin.ParseAndSaveToDb: a failed `copyTo` is modelled as leaving the temp file as it
  was. A partial copy is not modelled.
- Plugin.Plugin.PerformFullParse:
  - a failure to create the temp file is modelled as leaving no temp file;
  - a failed connection leaves a zero-length temp file, modelled as a file with empty tables.
- A failing SQL statement is not modelled on its own. Its only effect would be the exception
  path that a failed fetch or a bad number already takes. The CREATE TABLE statements are
  assumed to succeed.
- The first query of the category lookup, which has an unbound `?`, is not modelled. The model
  follows the prepared lookup right after it.
- The trimming of the read marker and the logging are left out.
- Numbers.ToInt accepts only ASCII digits. Kotlin's `toInt` also accepts other Unicode decimal
  digits.
- Delete-then-rename is not atomic for a concurrent reader. The model is sequential.
- Patch.UpdateEffect, Patch.InsertPhaseEffect, Patch.InsertRouteEffect: the replacement half
  (each listed number's new route holds its stops and timetables) is proved only when no route
  number is listed twice and no two routes share a category and number. With a repeated number,
  the first-match lookup puts the second copy's stops under the first new row. Likewise, when a
  route with the number is already under the category, the new row gets no stations: the lookup
  after the INSERT (lines 253-257) finds the older row, and the stops are filed under it. What
  holds without these conditions is stated by Patch.UpdateFrame, Patch.InsertPhaseFrame,
  Patch.InsertRouteKeeps and the first ensures of Patch.DeletePhaseEffect.
- Patch.DeletePhaseEffect, Plugin.PatchCycleKeepsOthers: that every targeted old row is gone is
  proved only when no two routes share a category and number. With duplicates, the delete loop
  removes only the first matching row per listed number (lines 213-221), and the others stay.
- Build.FullBuildStops is proved only when neither scraped number listing repeats a value. Then
  the build holds one route per (category, number) (Build.FullBuildUnique). With a repeated
  number, all its stops go to the first row.

=== FILE: build.dfy ===
/** The full build of performFullParse: the statements it runs on a new, empty database, as
    functions on a database value, and what the finished database holds. */
module Build {
  import opened Wrappers
  import opened Numbers
  import opened Tables
  import opened TableLemmas
  import opened Steps

  /** categories.forEach { INSERT INTO Category ... }: one row per name, and only the category
      table and its counter change. */
  function InsertCategories(s: Snapshot, names: seq<string>): (r: Snapshot)
    ensures |r.categories| == |s.categories| + |names|
    ensures r == s.(categories := r.categories, lastCategory := s.lastCategory + |names|)
    ensures forall c :: c in r.categories ==> c in s.categories || c.name in names
    decreases |names|
  {
    if names == [] then s else InsertCategories(InsertCategory(s, names[0]), names[1..])
  }

  /** numbers.forEach { INSERT INTO Bus (nameCategory_id, numBus) VALUES (categoryId, num.toInt()) };
      the first number that does not parse throws. */
  function InsertBuses(s: Snapshot, categoryId: int, nums: seq<string>): (r: Result<Snapshot>)
    ensures r.Ok? <==> forall x :: x in nums ==> ToInt(x).Some?
    decreases |nums|
  {
    if nums == [] then Ok(s)
    else
      var n :- ParseNumber(nums[0]);
      assert forall x :: x in nums ==> x == nums[0] || x in nums[1..];
      InsertBuses(InsertBus(s, categoryId, n), categoryId, nums[1..])
  }

  /** routes.forEach: look the route's number up under the category and insert the stop under the
      row found; a number with no row adds nothing, a number that does not parse throws. */
  function InsertMatchedStations(s: Snapshot, categoryId: int, routes: seq<Route>): (r: Result<Snapshot>)
    ensures r.Ok? <==> forall x :: x in routes ==> ToInt(x.number).Some?
    decreases |routes|
  {
    if routes == [] then Ok(s)
    else
      var n :- ParseNumber(routes[0].number);
      var next := match FindBus(s.buses, n, categoryId)
        case Some(b) => InsertStation(s, routes[0], b.id)
        case None => s;
      assert forall x :: x in routes ==> x == routes[0] || x in routes[1..];
      InsertMatchedStations(next, categoryId, routes[1..])
  }

  /** The body of performFullParse after the CREATE TABLE statements: categories, the bus and then
      the trolleybus numbers under their category ids, the bus and then the trolleybus stops under
      the matching rows, and last the timetable of every station. A category name the site does
      not list leaves the lookup empty, and reading its id throws. */
  function Populate(s: Snapshot, src: Source): (r: Result<Snapshot>)
    ensures src.transportNames.Err? ==> r == Err(src.transportNames.failure)
    // a category name neither stored nor scraped makes the id lookup throw
    ensures (src.transportNames.Ok? && BUS_CATEGORY !in src.transportNames.value &&
             forall c :: c in s.categories ==> c.name != BUS_CATEGORY) ==> r == Err(EmptyResult)
    ensures (src.transportNames.Ok? && TROLLEYBUS_CATEGORY !in src.transportNames.value &&
             forall c :: c in s.categories ==> c.name != TROLLEYBUS_CATEGORY) ==> r == Err(EmptyResult)
    // a completed build had every listing and every scraped number parsed
    ensures r.Ok? ==> src.busNumbers.Ok? && src.tralNumbers.Ok? && src.busRoutes.Ok? && src.tralRoutes.Ok?
    ensures r.Ok? ==> (forall x :: x in src.busNumbers.value ==> ToInt(x).Some?) &&
                      (forall x :: x in src.tralNumbers.value ==> ToInt(x).Some?) &&
                      (forall x :: x in src.busRoutes.value ==> ToInt(x.number).Some?) &&
                      (forall x :: x in src.tralRoutes.value ==> ToInt(x.number).Some?)
  {
    var names :- src.transportNames;
    var s1 := InsertCategories(s, names);
    match (FindCategory(s1.categories, BUS_CATEGORY), FindCategory(s1.categories, TROLLEYBUS_CATEGORY))
    case (Some(busCat), Some(tralCat)) =>
      var busNums :- src.busNumbers;
      var s2 :- InsertBuses(s1, busCat.id, busNums);
      var tralNums :- src.tralNumbers;
      var s3 :- InsertBuses(s2, tralCat.id, tralNums);
      var busRoutes :- src.busRoutes;
      var s4 :- InsertMatchedStations(s3, busCat.id, busRoutes);
      var tralRoutes :- src.tralRoutes;
      var s5 :- InsertMatchedStations(s4, tralCat.id, tralRoutes);
      InsertTimesFor(s5, s5.stations, src.busTime)
    case _ => Err(EmptyResult)
  }

  // ---------------------------------------------------------------- views

  function CategoryNames(cats: seq<Category>): (r: seq<string>)
    ensures |r| == |cats|
  {
    seq(|cats|, i requires 0 <= i < |cats| => cats[i].name)
  }

  /** The numbers stored under one category, in table order. */
  function NumbersOf(buses: seq<Bus>, categoryId: int): seq<int> {
    if buses == [] then []
    else (if buses[0].categoryId == categoryId then [buses[0].num] else []) + NumbersOf(buses[1..], categoryId)
  }

  /** The values of scraped numbers that all parse. */
  function ParsedValues(nums: seq<string>): (r: seq<int>)
    requires forall x :: x in nums ==> ToInt(x).Some?
    ensures |r| == |nums|
  {
    if nums == [] then [] else [ToInt(nums[0]).value] + ParsedValues(nums[1..])
  }

  /** The scraped stops whose number parses to n, in scraped order. */
  function Numbered(routes: seq<Route>, n: int): seq<Route> {
    if routes == [] then []
    else (if ToInt(routes[0].number) == Some(n) then [routes[0]] else []) + Numbered(routes[1..], n)
  }

  function BusIdsIn(buses: seq<Bus>, categoryId: int): set<int> {
    set b | b in buses && b.categoryId == categoryId :: b.id
  }

  // ---------------------------------------------------------------- categories

  /** The category names are stored in the order given, with fresh ids. */
  lemma {:induction false} InsertCategoriesEffect(s: Snapshot, names: seq<string>)
    ensures CategoryNames(InsertCategories(s, names).categories) == CategoryNames(s.categories) + names
    ensures Consistent(s) ==> Consistent(InsertCategories(s, names))
    decreases |names|
  {
    if names != [] {
      var s1 := InsertCategory(s, names[0]);
      InsertCategoriesEffect(s1, names[1..]);
      assert CategoryNames(s1.categories) == CategoryNames(s.categories) + [names[0]];
      assert names == [names[0]] + names[1..];
      if Consistent(s) {
        InsertCategoryConsistent(s, names[0]);
      }
    }
  }

  // ---------------------------------------------------------------- route numbers

  lemma {:induction false} NumbersOfAppend(bs: seq<Bus>, b: Bus, categoryId: int)
    ensures NumbersOf(bs + [b], categoryId) == NumbersOf(bs, categoryId) + (if b.categoryId == categoryId then [b.num] else [])
  {
    if bs != [] {
      assert (bs + [b])[1..] == bs[1..] + [b];
      NumbersOfAppend(bs[1..], b, categoryId);
    } else {
      assert [b][1..] == [];
    }
  }

  /** Inserting route numbers changes only the Bus table and its counter; every new row lies under
      the given category with an id above the old counter. */
  lemma {:induction false} InsertBusesFrame(s: Snapshot, categoryId: int, nums: seq<string>)
    requires InsertBuses(s, categoryId, nums).Ok?
    ensures InsertBuses(s, categoryId, nums).value ==
      s.(buses := InsertBuses(s, categoryId, nums).value.buses, lastBus := s.lastBus + |nums|)
    ensures forall b :: b in s.buses ==> b in InsertBuses(s, categoryId, nums).value.buses
    ensures forall b :: b in InsertBuses(s, categoryId, nums).value.buses ==>
      b in s.buses || (b.categoryId == categoryId && b.id > s.lastBus)
    ensures Consistent(s) && categoryId in CategoryIds(s.categories) ==> Consistent(InsertBuses(s, categoryId, nums).value)
    decreases |nums|
  {
    if nums != [] {
      var n := ToInt(nums[0]).value;
      InsertBusesFrame(InsertBus(s, categoryId, n), categoryId, nums[1..]);
      if Consistent(s) && categoryId in CategoryIds(s.categories) {
        InsertBusConsistent(s, categoryId, n);
      }
    }
  }

  /** Under the given category the parsed numbers are appended in scraped order. */
  lemma {:induction false} InsertBusesNumbers(s: Snapshot, categoryId: int, nums: seq<string>)
    requires InsertBuses(s, categoryId, nums).Ok?
    ensures NumbersOf(InsertBuses(s, categoryId, nums).value.buses, categoryId)
         == NumbersOf(s.buses, categoryId) + ParsedValues(nums)
    decreases |nums|
  {
    if nums != [] {
      var n := ToInt(nums[0]).value;
      var s1 := InsertBus(s, categoryId, n);
      assert InsertBuses(s, categoryId, nums) == InsertBuses(s1, categoryId, nums[1..]);
      InsertBusesNumbers(s1, categoryId, nums[1..]);
      NumbersOfAppend(s.buses, Bus(s.lastBus + 1, categoryId, n), categoryId);
    }
  }

  /** The numbers stored under every other category stay as they were. */
  lemma {:induction false} InsertBusesOthers(s: Snapshot, categoryId: int, nums: seq<string>, other: int)
    requires InsertBuses(s, categoryId, nums).Ok? && other != categoryId
    ensures NumbersOf(InsertBuses(s, categoryId, nums).value.buses, other) == NumbersOf(s.buses, other)
    decreases |nums|
  {
    if nums != [] {
      var n := ToInt(nums[0]).value;
      var s1 := InsertBus(s, categoryId, n);
      assert InsertBuses(s, categoryId, nums) == InsertBuses(s1, categoryId, nums[1..]);
      InsertBusesOthers(s1, categoryId, nums[1..], other);
      NumbersOfAppend(s.buses, Bus(s.lastBus + 1, categoryId, n), other);
    }
  }

  // ---------------------------------------------------------------- stops

  /** Inserting matched stops changes only the Station table and its counter; every new station hangs
      under a route of the given category and has an id above the old counter. */
  lemma {:induction false} InsertMatchedFrame(s: Snapshot, categoryId: int, routes: seq<Route>)
    requires InsertMatchedStations(s, categoryId, routes).Ok?
    ensures InsertMatchedStations(s, categoryId, routes).value ==
      s.(stations := InsertMatchedStations(s, categoryId, routes).value.stations,
         lastStation := InsertMatchedStations(s, categoryId, routes).value.lastStation)
    ensures forall st :: st in s.stations ==> st in InsertMatchedStations(s, categoryId, routes).value.stations
    ensures forall st :: st in InsertMatchedStations(s, categoryId, routes).value.stations ==>
      st in s.stations || (st.busId in BusIdsIn(s.buses, categoryId) && st.id > s.lastStation)
    ensures Consistent(s) ==> Consistent(InsertMatchedStations(s, categoryId, routes).value)
    decreases |routes|
  {
    if routes != [] {
      var n := ToInt(routes[0].number).value;
      match FindBus(s.buses, n, categoryId)
      case Some(b) =>
        var s1 := InsertStation(s, routes[0], b.id);
        InsertMatchedFrame(s1, categoryId, routes[1..]);
        assert b.id in BusIdsIn(s.buses, categoryId);
        if Consistent(s) {
          InsertStationConsistent(s, routes[0], b.id);
        }
      case None =>
        InsertMatchedFrame(s, categoryId, routes[1..]);
    }
  }

  /** The route b is the row the lookup finds for its own number under its category, and no other
      row shares its id. */
  ghost predicate FoundByNumber(buses: seq<Bus>, b: Bus, categoryId: int) {
    b.categoryId == categoryId && FindBus(buses, b.num, categoryId) == Some(b) &&
    forall c :: c in buses && c.id == b.id ==> c == b
  }

  /** With one row per (category, number) and ids that are keys, every route is the one its number
      finds. */
  lemma UniqueRoutesFound(s: Snapshot, b: Bus)
    requires Consistent(s) && UniqueRoutes(s) && b in s.buses
    ensures FoundByNumber(s.buses, b, b.categoryId)
  {
    BusIdIsKey(s.buses);
  }

  /** Each route the lookup finds for its number receives exactly the scraped stops whose number
      parses to its own, in scraped order; a stop whose number finds no row is dropped. */
  lemma {:induction false} InsertMatchedPerRoute(s: Snapshot, categoryId: int, routes: seq<Route>, b: Bus)
    requires InsertMatchedStations(s, categoryId, routes).Ok?
    requires FoundByNumber(s.buses, b, categoryId)
    ensures StopsOf(StationsOf(InsertMatchedStations(s, categoryId, routes).value.stations, b.id))
         == StopsOf(StationsOf(s.stations, b.id)) + RouteStops(Numbered(routes, b.num))
    decreases |routes|
  {
    if routes != [] {
      var x := routes[0];
      var n := ToInt(x.number).value;
      var found := FindBus(s.buses, n, categoryId);
      var s1 := if found.Some? then InsertStation(s, x, found.value.id) else s;
      var r := InsertMatchedStations(s1, categoryId, routes[1..]).value;
      assert InsertMatchedStations(s, categoryId, routes).value == r by {
        MatchedUnfold(s, categoryId, routes);
      }
      var before := StopsOf(StationsOf(s.stations, b.id));
      var rest := Numbered(routes[1..], b.num);
      var grown := if b.num == n then RouteStops([x]) else [];
      assert StopsOf(StationsOf(s1.stations, b.id)) == before + grown && FoundByNumber(s1.buses, b, categoryId) by {
        MatchedStep(s, categoryId, x, b);
      }
      InsertMatchedPerRoute(s1, categoryId, routes[1..], b);
      NumberedStep(routes, b.num);
      ConcatAssoc(before, grown, RouteStops(rest));
    }
  }

  lemma NumberedStep(routes: seq<Route>, num: int)
    requires routes != [] && ToInt(routes[0].number).Some?
    ensures RouteStops(Numbered(routes, num))
         == (if ToInt(routes[0].number).value == num then RouteStops([routes[0]]) else [])
            + RouteStops(Numbered(routes[1..], num))
  {
    var rest := Numbered(routes[1..], num);
    if ToInt(routes[0].number).value == num {
      assert Numbered(routes, num) == [routes[0]] + rest;
      RouteStopsConcat([routes[0]], rest);
    } else {
      assert Numbered(routes, num) == rest;
    }
  }

  lemma MatchedUnfold(s: Snapshot, categoryId: int, routes: seq<Route>)
    requires routes != [] && InsertMatchedStations(s, categoryId, routes).Ok?
    ensures ToInt(routes[0].number).Some?
    ensures var found := FindBus(s.buses, ToInt(routes[0].number).value, categoryId);
      var s1 := if found.Some? then InsertStation(s, routes[0], found.value.id) else s;
      InsertMatchedStations(s, categoryId, routes) == InsertMatchedStations(s1, categoryId, routes[1..])
  {
  }

  /** One matched stop: the route found for its number grows by that stop, and no other. */
  lemma MatchedStep(s: Snapshot, categoryId: int, x: Route, b: Bus)
    requires ToInt(x.number).Some?
    requires FoundByNumber(s.buses, b, categoryId)
    ensures var found := FindBus(s.buses, ToInt(x.number).value, categoryId);
      var s1 := if found.Some? then InsertStation(s, x, found.value.id) else s;
      s1.buses == s.buses &&
      StopsOf(StationsOf(s1.stations, b.id)) == StopsOf(StationsOf(s.stations, b.id)) +
        (if b.num == ToInt(x.number).value then RouteStops([x]) else [])
  {
    var n := ToInt(x.number).value;
    var found := FindBus(s.buses, n, categoryId);
    if found.Some? {
      var s1 := InsertStation(s, x, found.value.id);
      var row := Station(s.lastStation + 1, x.station, x.path, x.link, found.value.id);
      var before := StationsOf(s.stations, b.id);
      assert s1.stations == s.stations + [row];
      StationsOfAppend(s.stations, row, b.id);
      if b.num == n {
        assert found.value == b;
        assert StationsOf(s1.stations, b.id) == before + [row];
        StopsOfConcat(before, [row]);
        assert StopsOf([row]) == RouteStops([x]);
      } else {
        assert found.value.id != b.id;
        assert StationsOf(s1.stations, b.id) == before;
      }
    }
  }

  /** Routes of another category keep their stations. */
  lemma {:induction false} InsertMatchedOthers(s: Snapshot, categoryId: int, routes: seq<Route>, busId: int)
    requires InsertMatchedStations(s, categoryId, routes).Ok?
    requires busId !in BusIdsIn(s.buses, categoryId)
    ensures StationsOf(InsertMatchedStations(s, categoryId, routes).value.stations, busId) == StationsOf(s.stations, busId)
    decreases |routes|
  {
    if routes != [] {
      var x := routes[0];
      var n := ToInt(x.number).value;
      var found := FindBus(s.buses, n, categoryId);
      var s1 := if found.Some? then InsertStation(s, x, found.value.id) else s;
      assert InsertMatchedStations(s, categoryId, routes) == InsertMatchedStations(s1, categoryId, routes[1..]);
      if found.Some? {
        assert found.value.id in BusIdsIn(s.buses, categoryId);
        StationsOfAppend(s.stations, Station(s.lastStation + 1, x.station, x.path, x.link, found.value.id), busId);
      }
      InsertMatchedOthers(s1, categoryId, routes[1..], busId);
    }
  }

  // ---------------------------------------------------------------- the whole build

  /** s1 to s5 are the intermediate databases of a build of s that succeeds: after the categories
      (s1), the bus and trolleybus numbers (s2, s3), the bus and trolleybus stops (s4, s5); the
      result adds the timetables to s5. */
  ghost predicate Stages(s: Snapshot, src: Source, s1: Snapshot, busCat: Category, tralCat: Category,
                         s2: Snapshot, s3: Snapshot, s4: Snapshot, s5: Snapshot)
  {
    src.transportNames.Ok? && s1 == InsertCategories(s, src.transportNames.value) &&
    FindCategory(s1.categories, BUS_CATEGORY) == Some(busCat) &&
    FindCategory(s1.categories, TROLLEYBUS_CATEGORY) == Some(tralCat) &&
    src.busNumbers.Ok? && InsertBuses(s1, busCat.id, src.busNumbers.value) == Ok(s2) &&
    src.tralNumbers.Ok? && InsertBuses(s2, tralCat.id, src.tralNumbers.value) == Ok(s3) &&
    src.busRoutes.Ok? && InsertMatchedStations(s3, busCat.id, src.busRoutes.value) == Ok(s4) &&
    src.tralRoutes.Ok? && InsertMatchedStations(s4, tralCat.id, src.tralRoutes.value) == Ok(s5) &&
    InsertTimesFor(s5, s5.stations, src.busTime) == Populate(s, src)
  }

  /** A build that succeeds went through every stage. */
  lemma PopulateStages(s: Snapshot, src: Source)
    returns (s1: Snapshot, busCat: Category, tralCat: Category, s2: Snapshot, s3: Snapshot, s4: Snapshot, s5: Snapshot)
    requires Populate(s, src).Ok?
    ensures Stages(s, src, s1, busCat, tralCat, s2, s3, s4, s5)
  {
    s1 := InsertCategories(s, src.transportNames.value);
    busCat := FindCategory(s1.categories, BUS_CATEGORY).value;
    tralCat := FindCategory(s1.categories, TROLLEYBUS_CATEGORY).value;
    s2 := InsertBuses(s1, busCat.id, src.busNumbers.value).value;
    s3 := InsertBuses(s2, tralCat.id, src.tralNumbers.value).value;
    s4 := InsertMatchedStations(s3, busCat.id, src.busRoutes.value).value;
    s5 := InsertMatchedStations(s4, tralCat.id, src.tralRoutes.value).value;
  }

  /** What each stage of a build on a new file changes: the tables stay consistent, the categories
      are fixed after the first stage, the routes after the third, the stations after the fifth,
      and the two categories looked up are distinct rows. */
  lemma FullBuildFrames(src: Source, s1: Snapshot, busCat: Category, tralCat: Category,
                        s2: Snapshot, s3: Snapshot, s4: Snapshot, s5: Snapshot)
    requires Populate(EMPTY, src).Ok? && Stages(EMPTY, src, s1, busCat, tralCat, s2, s3, s4, s5)
    ensures var r := Populate(EMPTY, src).value;
      Consistent(s1) && Consistent(s3) && Consistent(s4) && Consistent(s5) && Consistent(r) &&
      CategoryNames(s1.categories) == src.transportNames.value && busCat.id != tralCat.id &&
      s1.buses == [] && s3.stations == [] && s5.times == [] &&
      r.categories == s1.categories && r.buses == s3.buses && r.stations == s5.stations &&
      s2.categories == s1.categories && s4.buses == s3.buses
  {
    StageCategories(src.transportNames.value, s1, busCat, tralCat);
    StageNumbers(s1, busCat, tralCat, s2, s3, src);
    StageStops(s3, busCat, tralCat, s4, s5, src);
    InsertTimesForEffect(s5, s5.stations, src.busTime);
  }

  lemma StageCategories(names: seq<string>, s1: Snapshot, busCat: Category, tralCat: Category)
    requires s1 == InsertCategories(EMPTY, names)
    requires FindCategory(s1.categories, BUS_CATEGORY) == Some(busCat)
    requires FindCategory(s1.categories, TROLLEYBUS_CATEGORY) == Some(tralCat)
    ensures Consistent(s1) && CategoryNames(s1.categories) == names && busCat.id != tralCat.id
    ensures busCat.id in CategoryIds(s1.categories) && tralCat.id in CategoryIds(s1.categories)
    ensures s1.buses == [] && s1.stations == [] && s1.times == []
  {
    assert Consistent(EMPTY);
    InsertCategoriesEffect(EMPTY, names);
    assert CategoryNames(EMPTY.categories) == [];
    CategoryIdIsKey(s1.categories);
  }

  lemma StageNumbers(s1: Snapshot, busCat: Category, tralCat: Category, s2: Snapshot, s3: Snapshot, src: Source)
    requires Consistent(s1) && busCat.id in CategoryIds(s1.categories) && tralCat.id in CategoryIds(s1.categories)
    requires src.busNumbers.Ok? && InsertBuses(s1, busCat.id, src.busNumbers.value) == Ok(s2)
    requires src.tralNumbers.Ok? && InsertBuses(s2, tralCat.id, src.tralNumbers.value) == Ok(s3)
    ensures Consistent(s3) && s2.categories == s1.categories && s3.categories == s1.categories
    ensures s3.stations == s1.stations && s3.times == s1.times
  {
    InsertBusesFrame(s1, busCat.id, src.busNumbers.value);
    InsertBusesFrame(s2, tralCat.id, src.tralNumbers.value);
  }

  lemma StageStops(s3: Snapshot, busCat: Category, tralCat: Category, s4: Snapshot, s5: Snapshot, src: Source)
    requires Consistent(s3)
    requires src.busRoutes.Ok? && InsertMatchedStations(s3, busCat.id, src.busRoutes.value) == Ok(s4)
    requires src.tralRoutes.Ok? && InsertMatchedStations(s4, tralCat.id, src.tralRoutes.value) == Ok(s5)
    ensures Consistent(s4) && Consistent(s5) && s4.buses == s3.buses && s5.buses == s3.buses
    ensures s5.categories == s3.categories && s5.times == s3.times
  {
    InsertMatchedFrame(s3, busCat.id, src.busRoutes.value);
    InsertMatchedFrame(s4, tralCat.id, src.tralRoutes.value);
  }

  /** A build on a new file stores the scraped category names in order, and under the bus and the
      trolleybus category exactly the scraped route numbers, in order. */
  lemma FullBuildNumbers(src: Source)
    requires Populate(EMPTY, src).Ok?
    ensures var r := Populate(EMPTY, src).value;
      src.transportNames.Ok? && CategoryNames(r.categories) == src.transportNames.value &&
      FindCategory(r.categories, BUS_CATEGORY).Some? && FindCategory(r.categories, TROLLEYBUS_CATEGORY).Some? &&
      src.busNumbers.Ok? && src.tralNumbers.Ok? &&
      (forall x :: x in src.busNumbers.value ==> ToInt(x).Some?) &&
      (forall x :: x in src.tralNumbers.value ==> ToInt(x).Some?) &&
      NumbersOf(r.buses, FindCategory(r.categories, BUS_CATEGORY).value.id) == ParsedValues(src.busNumbers.value) &&
      NumbersOf(r.buses, FindCategory(r.categories, TROLLEYBUS_CATEGORY).value.id) == ParsedValues(src.tralNumbers.value)
  {
    var s1, busCat, tralCat, s2, s3, s4, s5 := PopulateStages(EMPTY, src);
    FullBuildFrames(src, s1, busCat, tralCat, s2, s3, s4, s5);
    StageNumbersValues(s1, busCat, tralCat, s2, s3, src);
  }

  lemma StageNumbersValues(s1: Snapshot, busCat: Category, tralCat: Category, s2: Snapshot, s3: Snapshot, src: Source)
    requires s1.buses == [] && busCat.id != tralCat.id
    requires src.busNumbers.Ok? && InsertBuses(s1, busCat.id, src.busNumbers.value) == Ok(s2)
    requires src.tralNumbers.Ok? && InsertBuses(s2, tralCat.id, src.tralNumbers.value) == Ok(s3)
    ensures forall x :: x in src.busNumbers.value ==> ToInt(x).Some?
    ensures forall x :: x in src.tralNumbers.value ==> ToInt(x).Some?
    ensures NumbersOf(s3.buses, busCat.id) == ParsedValues(src.busNumbers.value)
    ensures NumbersOf(s3.buses, tralCat.id) == ParsedValues(src.tralNumbers.value)
  {
    assert NumbersOf(s1.buses, busCat.id) == [] && NumbersOf(s1.buses, tralCat.id) == [];
    InsertBusesNumbers(s1, busCat.id, src.busNumbers.value);
    InsertBusesNumbers(s2, tralCat.id, src.tralNumbers.value);
    InsertBusesOthers(s2, tralCat.id, src.tralNumbers.value, busCat.id);
    InsertBusesOthers(s1, busCat.id, src.busNumbers.value, tralCat.id);
  }

  /** Every route of a build on a new file lies under the bus or the trolleybus category. */
  lemma StageNumbersKinds(s1: Snapshot, busCat: Category, tralCat: Category, s2: Snapshot, s3: Snapshot, src: Source)
    requires s1.buses == []
    requires src.busNumbers.Ok? && InsertBuses(s1, busCat.id, src.busNumbers.value) == Ok(s2)
    requires src.tralNumbers.Ok? && InsertBuses(s2, tralCat.id, src.tralNumbers.value) == Ok(s3)
    ensures forall b :: b in s3.buses ==> b.categoryId == busCat.id || b.categoryId == tralCat.id
  {
    InsertBusesFrame(s1, busCat.id, src.busNumbers.value);
    InsertBusesFrame(s2, tralCat.id, src.tralNumbers.value);
  }

  /** The stops of a route under the first category of the two stop stages. */
  lemma FirstKindStops(s3: Snapshot, firstId: int, secondId: int, s4: Snapshot, s5: Snapshot,
                       first: seq<Route>, second: seq<Route>, b: Bus)
    requires Consistent(s3) && UniqueRoutes(s3) && b in s3.buses && s3.stations == []
    requires b.categoryId == firstId && firstId != secondId
    requires InsertMatchedStations(s3, firstId, first) == Ok(s4)
    requires InsertMatchedStations(s4, secondId, second) == Ok(s5)
    requires s4.buses == s3.buses
    ensures StopsOf(StationsOf(s5.stations, b.id)) == RouteStops(Numbered(first, b.num))
  {
    UniqueRoutesFound(s3, b);
    assert StopsOf(StationsOf(s3.stations, b.id)) == [];
    InsertMatchedPerRoute(s3, firstId, first, b);
    BusIdIsKey(s3.buses);
    assert b.id !in BusIdsIn(s4.buses, secondId);
    InsertMatchedOthers(s4, secondId, second, b.id);
  }

  /** The stops of a route under the second category of the two stop stages. */
  lemma SecondKindStops(s3: Snapshot, firstId: int, secondId: int, s4: Snapshot, s5: Snapshot,
                        first: seq<Route>, second: seq<Route>, b: Bus)
    requires Consistent(s3) && UniqueRoutes(s3) && b in s3.buses && s3.stations == []
    requires b.categoryId == secondId && firstId != secondId
    requires InsertMatchedStations(s3, firstId, first) == Ok(s4)
    requires InsertMatchedStations(s4, secondId, second) == Ok(s5)
    requires s4.buses == s3.buses
    ensures StopsOf(StationsOf(s5.stations, b.id)) == RouteStops(Numbered(second, b.num))
  {
    UniqueRoutesFound(s3, b);
    BusIdIsKey(s3.buses);
    assert b.id !in BusIdsIn(s3.buses, firstId);
    InsertMatchedOthers(s3, firstId, first, b.id);
    assert StopsOf(StationsOf(s4.stations, b.id)) == [];
    InsertMatchedPerRoute(s4, secondId, second, b);
  }

  /** A build on a new file gives every route, all of which lie under the bus or the trolleybus
      category, exactly the scraped stops of its kind whose number is its own, in scraped order
      (when no category lists a number twice); a stop whose number has no route is stored nowhere. */
  lemma FullBuildStops(src: Source)
    requires Populate(EMPTY, src).Ok?
    requires src.busNumbers.Ok? && DistinctNumbers(src.busNumbers.value)
    requires src.tralNumbers.Ok? && DistinctNumbers(src.tralNumbers.value)
    ensures var r := Populate(EMPTY, src).value;
      FindCategory(r.categories, BUS_CATEGORY).Some? && FindCategory(r.categories, TROLLEYBUS_CATEGORY).Some? &&
      src.busRoutes.Ok? && src.tralRoutes.Ok? &&
      var busId := FindCategory(r.categories, BUS_CATEGORY).value.id;
      var tralId := FindCategory(r.categories, TROLLEYBUS_CATEGORY).value.id;
      (forall st :: st in r.stations ==> st.busId in BusIds(r.buses)) &&
      (forall b :: b in r.buses ==> b.categoryId == busId || b.categoryId == tralId) &&
      (forall b :: b in r.buses && b.categoryId == busId ==>
         StopsOf(StationsOf(r.stations, b.id)) == RouteStops(Numbered(src.busRoutes.value, b.num))) &&
      (forall b :: b in r.buses && b.categoryId == tralId ==>
         StopsOf(StationsOf(r.stations, b.id)) == RouteStops(Numbered(src.tralRoutes.value, b.num)))
  {
    var r := Populate(EMPTY, src).value;
    FullBuildUnique(src);
    var s1, busCat, tralCat, s2, s3, s4, s5 := PopulateStages(EMPTY, src);
    FullBuildFrames(src, s1, busCat, tralCat, s2, s3, s4, s5);
    StageNumbersKinds(s1, busCat, tralCat, s2, s3, src);
    forall b | b in r.buses && b.categoryId == busCat.id
      ensures StopsOf(StationsOf(r.stations, b.id)) == RouteStops(Numbered(src.busRoutes.value, b.num))
    {
      FirstKindStops(s3, busCat.id, tralCat.id, s4, s5, src.busRoutes.value, src.tralRoutes.value, b);
    }
    forall b | b in r.buses && b.categoryId == tralCat.id
      ensures StopsOf(StationsOf(r.stations, b.id)) == RouteStops(Numbered(src.tralRoutes.value, b.num))
    {
      SecondKindStops(s3, busCat.id, tralCat.id, s4, s5, src.busRoutes.value, src.tralRoutes.value, b);
    }
  }

  /** The values of a list of scraped numbers that all parse, position by position. */
  lemma {:induction false} ParsedValuesAt(nums: seq<string>, i: int)
    requires forall x :: x in nums ==> ToInt(x).Some?
    requires 0 <= i < |nums|
    ensures ParsedValues(nums)[i] == ToInt(nums[i]).value
    decreases |nums|
  {
    if i > 0 {
      assert nums[1..][i - 1] == nums[i];
      ParsedValuesAt(nums[1..], i - 1);
    }
  }

  ghost predicate NoRepeats(xs: seq<int>) {
    forall i, j :: 0 <= i < j < |xs| ==> xs[i] != xs[j]
  }

  /** Scraped numbers no two of which parse to the same value have repeat-free values. */
  lemma ParsedValuesNoRepeats(nums: seq<string>)
    requires forall x :: x in nums ==> ToInt(x).Some?
    requires DistinctNumbers(nums)
    ensures NoRepeats(ParsedValues(nums))
  {
    forall i, j | 0 <= i < j < |nums| ensures ParsedValues(nums)[i] != ParsedValues(nums)[j] {
      ParsedValuesAt(nums, i);
      ParsedValuesAt(nums, j);
    }
  }

  /** A route row's number is among the numbers stored under its category. */
  lemma {:induction false} NumberStored(bs: seq<Bus>, b: Bus)
    requires b in bs
    ensures b.num in NumbersOf(bs, b.categoryId)
  {
    if bs[0] != b {
      NumberStored(bs[1..], b);
    }
  }

  /** When the numbers under a category do not repeat, no two of its rows share a number. */
  lemma {:induction false} NoRepeatsUnique(bs: seq<Bus>, categoryId: int)
    requires NoRepeats(NumbersOf(bs, categoryId))
    ensures forall a, b :: (a in bs && b in bs && a.categoryId == categoryId && b.categoryId == categoryId &&
                            a.num == b.num) ==> a == b
  {
    if bs != [] {
      var all := NumbersOf(bs, categoryId);
      var rest := NumbersOf(bs[1..], categoryId);
      if bs[0].categoryId == categoryId {
        assert all == [bs[0].num] + rest;
        assert NoRepeats(rest) by {
          forall i, j | 0 <= i < j < |rest| ensures rest[i] != rest[j] {
            assert rest[i] == all[i + 1] && rest[j] == all[j + 1];
          }
        }
        forall b | b in bs[1..] && b.categoryId == categoryId ensures b.num != bs[0].num {
          NumberStored(bs[1..], b);
          var k :| 0 <= k < |rest| && rest[k] == b.num;
          assert all[k + 1] == b.num && all[0] == bs[0].num;
        }
      } else {
        assert all == rest;
      }
      NoRepeatsUnique(bs[1..], categoryId);
    }
  }

  /** A build on a new file from number listings that repeat no value within a category holds one
      route per (category, number). */
  lemma FullBuildUnique(src: Source)
    requires Populate(EMPTY, src).Ok?
    requires src.busNumbers.Ok? && DistinctNumbers(src.busNumbers.value)
    requires src.tralNumbers.Ok? && DistinctNumbers(src.tralNumbers.value)
    ensures UniqueRoutes(Populate(EMPTY, src).value)
  {
    var r := Populate(EMPTY, src).value;
    var s1, busCat, tralCat, s2, s3, s4, s5 := PopulateStages(EMPTY, src);
    FullBuildFrames(src, s1, busCat, tralCat, s2, s3, s4, s5);
    StageNumbersValues(s1, busCat, tralCat, s2, s3, src);
    StageNumbersKinds(s1, busCat, tralCat, s2, s3, src);
    ParsedValuesNoRepeats(src.busNumbers.value);
    ParsedValuesNoRepeats(src.tralNumbers.value);
    NoRepeatsUnique(r.buses, busCat.id);
    NoRepeatsUnique(r.buses, tralCat.id);
  }

  /** A build on a new file stores, for every station, exactly the timetable fetched for its link. */
  lemma FullBuildTimes(src: Source)
    requires Populate(EMPTY, src).Ok?
    ensures var r := Populate(EMPTY, src).value;
      forall st :: st in r.stations ==>
        src.busTime(st.link).Ok? && TimesView(TimesOf(r.times, st.id)) == src.busTime(st.link).value
  {
    var s1, busCat, tralCat, s2, s3, s4, s5 := PopulateStages(EMPTY, src);
    FullBuildFrames(src, s1, busCat, tralCat, s2, s3, s4, s5);
    InsertTimesForEffect(s5, s5.stations, src.busTime);
    assert forall id :: TimesView(TimesOf(s5.times, id)) == [];
  }
}

=== FILE: numbers.dfy ===
/** Kotlin's String.toInt() (java.lang.Integer.parseInt with radix 10), which turns the scraped
    route numbers into the integer column Bus.numBus. */
module Numbers {
  import opened Wrappers

  const MIN_INT: int := -0x8000_0000
  const MAX_INT: int := 0x7fff_ffff

  predicate IsDigit(c: char) { '0' <= c <= '9' }

  predicate AllDigits(s: string) { forall i :: 0 <= i < |s| ==> IsDigit(s[i]) }

  function DigitValue(c: char): (d: nat)
    requires IsDigit(c)
    ensures d < 10
  {
    (c as int) - ('0' as int)
  }

  /** The value of a run of decimal digits, most significant digit first. */
  function DigitsValue(s: string): nat
    requires AllDigits(s)
  {
    if s == [] then 0 else DigitsValue(s[..|s| - 1]) * 10 + DigitValue(s[|s| - 1])
  }

  /** An optional '+' or '-' followed by at least one decimal digit, whose value fits in 32 bits;
      anything else throws (None). */
  function ToInt(s: string): (r: Option<int>)
    ensures r.Some? ==> MIN_INT <= r.value <= MAX_INT
    // only digits, or a sign and then at least one digit, can parse
    ensures r.Some? ==> (s != [] && AllDigits(s)) || (|s| > 1 && (s[0] == '+' || s[0] == '-') && AllDigits(s[1..]))
    // each of those shapes parses exactly when its value fits, and to that value
    ensures s != [] && AllDigits(s) ==>
      r == if DigitsValue(s) <= MAX_INT then Some(DigitsValue(s)) else None
    ensures |s| > 1 && s[0] == '+' && AllDigits(s[1..]) ==>
      r == if DigitsValue(s[1..]) <= MAX_INT then Some(DigitsValue(s[1..])) else None
    ensures |s| > 1 && s[0] == '-' && AllDigits(s[1..]) ==>
      r == if DigitsValue(s[1..]) <= -MIN_INT then Some(0 - DigitsValue(s[1..]) as int) else None
  {
    if |s| == 0 then None
    else
      var signed := s[0] == '-' || s[0] == '+';
      var body := if signed then s[1..] else s;
      if body == [] || !AllDigits(body) then None
      else
        var v: int := if s[0] == '-' then 0 - DigitsValue(body) as int else DigitsValue(body);
        if MIN_INT <= v <= MAX_INT then Some(v) else None
  }

  /** Leading zeros are read, and a lone sign or a trailing letter is not a number. */
  lemma ToIntExamples()
    ensures ToInt("007") == Some(7) && ToInt("+12") == Some(12) && ToInt("-0") == Some(0)
    ensures ToInt("+") == None && ToInt("-") == None && ToInt("") == None && ToInt("1a") == None
  {
    assert "007"[..2] == "00" && "00"[..1] == "0" && "0"[..0] == "";
    assert "+12"[1..] == "12" && "12"[..1] == "1" && "1"[..0] == "";
    assert "-0"[1..] == "0";
    assert !IsDigit("1a"[1]);
  }

  /** toInt as called by the program: a failure is the exception it throws. */
  function ParseNumber(s: string): (r: Result<int>)
    ensures r.Ok? <==> ToInt(s).Some?
    ensures r.Ok? ==> r.value == ToInt(s).value
    ensures r.Err? ==> r.failure == BadNumber
  {
    match ToInt(s)
    case Some(n) => Ok(n)
    case None => Err(BadNumber)
  }

  function DigitChar(d: nat): (c: char)
    requires d < 10
    ensures IsDigit(c) && DigitValue(c) == d
  {
    ('0' as int + d) as char
  }

  /** Decimal rendering of a natural number without leading zeros. */
  function Show(n: nat): (s: string)
    decreases n
  {
    if n < 10 then [DigitChar(n)] else Show(n / 10) + [DigitChar(n % 10)]
  }

  lemma {:induction false} ShowDigits(n: nat)
    ensures |Show(n)| > 0 && AllDigits(Show(n)) && DigitsValue(Show(n)) == n
    decreases n
  {
    if n >= 10 {
      ShowDigits(n / 10);
      var s := Show(n);
      assert s[..|s| - 1] == Show(n / 10);
    }
  }

  /** Every 32-bit number, written in decimal with an optional minus sign, parses back to itself. */
  lemma ToIntShow(n: int)
    requires MIN_INT <= n <= MAX_INT
    ensures n >= 0 ==> ToInt(Show(n)) == Some(n)
    ensures n < 0 ==> ToInt("-" + Show(-n)) == Some(n)
  {
    ShowDigits(if n >= 0 then n else -n);
    if n < 0 {
      assert ("-" + Show(-n))[1..] == Show(-n);
    }
  }
}

=== FILE: patch.dfy ===
/** The incremental patch of parseAndSaveToDb, run on a copy of the current database when the site
    lists the routes of one category whose timetables changed: first every listed route is deleted
    with its stations and time rows, then every listed route is inserted again with the stops and
    timetables scraped now. */
module Patch {
  import opened Wrappers
  import opened Numbers
  import opened Tables
  import opened TableLemmas
  import opened Steps

  /** changedRoutes.forEach: look the number up under the category and delete the route found with
      its stations and time rows; a number with no route is skipped, one that does not parse throws. */
  function DeletePhase(s: Snapshot, categoryId: int, nums: seq<string>): (r: Result<Snapshot>)
    ensures r.Ok? <==> forall x :: x in nums ==> ToInt(x).Some?
    ensures r.Err? ==> r.failure == BadNumber
    ensures r.Ok? ==> r.value.categories == s.categories && r.value.lastBus == s.lastBus
    decreases |nums|
  {
    if nums == [] then Ok(s)
    else
      var n :- ParseNumber(nums[0]);
      var next := match FindBus(s.buses, n, categoryId)
        case Some(b) => DeleteBus(s, b.id)
        case None => s;
      assert forall x :: x in nums ==> x == nums[0] || x in nums[1..];
      DeletePhase(next, categoryId, nums[1..])
  }

  /** The body of the second changedRoutes.forEach for one number: insert the route, read back the
      first route with that number under the category, insert under it the scraped stops of the
      category whose number is the same string, then fetch and insert the timetable of every
      station of that route. */
  function InsertRoute(s: Snapshot, categoryId: int, isBus: bool, number: string, src: Source): (r: Result<Snapshot>)
    ensures ToInt(number).None? ==> r == Err(BadNumber)
    ensures r.Ok? ==> ToInt(number).Some? && (if isBus then src.busRoutes else src.tralRoutes).Ok?
  {
    var n :- ParseNumber(number);
    var s1 := InsertBus(s, categoryId, n);
    match FindBus(s1.buses, n, categoryId)
    case None => Err(EmptyResult)
    case Some(bus) =>
      var routes :- if isBus then src.busRoutes else src.tralRoutes;
      var s2 := InsertStations(s1, WithNumber(routes, number), bus.id);
      InsertTimesFor(s2, StationsOf(s2.stations, bus.id), src.busTime)
  }

  /** changedRoutes.forEach { InsertRoute }; the first exception ends the loop. */
  function InsertPhase(s: Snapshot, categoryId: int, isBus: bool, nums: seq<string>, src: Source): (r: Result<Snapshot>)
    ensures r.Ok? ==> forall x :: x in nums ==> ToInt(x).Some?
    decreases |nums|
  {
    if nums == [] then Ok(s)
    else
      var s1 :- InsertRoute(s, categoryId, isBus, nums[0], src);
      InsertPhase(s1, categoryId, isBus, nums[1..], src)
  }

  /** How the patch on the copy ends: the category is not in the database (the method returns
      without touching the files again), an exception was thrown, or the copy is ready. */
  datatype PatchResult = CategoryNotFound | Failed(failure: Failure) | Patched(db: Snapshot)

  /** The statements parseAndSaveToDb runs on the copy for the changed routes of one category. The
      stops are taken from the bus listing when the category is the bus category, and from the
      trolleybus listing otherwise. */
  function Update(s: Snapshot, transportType: string, nums: seq<string>, src: Source): (r: PatchResult)
    ensures r.CategoryNotFound? <==> FindCategory(s.categories, transportType).None?
    ensures r.Patched? ==> forall x :: x in nums ==> ToInt(x).Some?
  {
    match FindCategory(s.categories, transportType)
    case None => CategoryNotFound
    case Some(cat) =>
      match DeletePhase(s, cat.id, nums)
      case Err(f) => Failed(f)
      case Ok(s1) =>
        match InsertPhase(s1, cat.id, transportType == BUS_CATEGORY, nums, src)
        case Err(f) => Failed(f)
        case Ok(s2) => Patched(s2)
  }

  // ---------------------------------------------------------------- specification helpers

  /** Some listed number parses to n. */
  ghost predicate Listed(nums: seq<string>, n: int) {
    exists i :: 0 <= i < |nums| && ToInt(nums[i]) == Some(n)
  }

  /** The route is one the patch targets: under the category, with a listed number. */
  ghost predicate Targeted(b: Bus, categoryId: int, nums: seq<string>) {
    b.categoryId == categoryId && Listed(nums, b.num)
  }

  /** The route holds exactly the scraped stops with its number, in scraped order, and each of its
      stations exactly the timetable fetched for its link. */
  ghost predicate Loaded(s: Snapshot, busId: int, routes: seq<Route>, number: string, fetch: TimeSource) {
    StopsOf(StationsOf(s.stations, busId)) == RouteStops(WithNumber(routes, number)) &&
    forall st :: st in StationsOf(s.stations, busId) ==>
      fetch(st.link).Ok? && TimesView(TimesOf(s.times, st.id)) == fetch(st.link).value
  }

  lemma RouteUnchangedTrans(s: Snapshot, t: Snapshot, u: Snapshot, busId: int)
    requires RouteUnchanged(s, t, busId) && RouteUnchanged(t, u, busId)
    ensures RouteUnchanged(s, u, busId)
  {
  }

  lemma LoadedKept(s: Snapshot, t: Snapshot, busId: int, routes: seq<Route>, number: string, fetch: TimeSource)
    requires Loaded(s, busId, routes, number, fetch) && RouteUnchanged(s, t, busId)
    ensures Loaded(t, busId, routes, number, fetch)
  {
  }

  // ---------------------------------------------------------------- delete phase

  /** Deleting for one number leaves every route with another (category, number) as it was, keeps
      only rows that were there, and, when no two routes share a (category, number), removes the
      route with that number under the category. */
  lemma DeleteStep(s: Snapshot, categoryId: int, n: int)
    requires Consistent(s)
    ensures var next := match FindBus(s.buses, n, categoryId) case Some(b) => DeleteBus(s, b.id) case None => s;
      Consistent(next) && next.categories == s.categories && next.lastBus == s.lastBus &&
      next.lastStation == s.lastStation &&
      (forall b :: b in next.buses ==> b in s.buses) && (forall st :: st in next.stations ==> st in s.stations) &&
      (forall b :: b in s.buses && !(b.categoryId == categoryId && b.num == n) ==>
         b in next.buses && RouteUnchanged(s, next, b.id)) &&
      next.lastCategory == s.lastCategory && next.lastTime == s.lastTime &&
      (forall t :: t in next.times ==> t in s.times) &&
      (UniqueRoutes(s) ==>
         UniqueRoutes(next) &&
         forall b :: b in s.buses && b.categoryId == categoryId && b.num == n ==> b.id !in BusIds(next.buses))
  {
    match FindBus(s.buses, n, categoryId)
    case Some(f) =>
      DeleteBusConsistent(s, f.id);
      DeleteBusFrame(s, f.id);
      BusIdIsKey(s.buses);
    case None =>
  }

  /** The delete phase, when every listed number parses, keeps the tables consistent, the counters
      and only rows that were there, and leaves every untargeted route, its stations and their time rows as they
      were. When no two routes share a (category, number) it also removes every targeted route,
      and with it its stations and their time rows. */
  lemma {:induction false} DeletePhaseEffect(s: Snapshot, categoryId: int, nums: seq<string>)
    requires DeletePhase(s, categoryId, nums).Ok?
    requires Consistent(s)
    ensures var r := DeletePhase(s, categoryId, nums).value;
      Consistent(r) && r.categories == s.categories && r.lastBus == s.lastBus && r.lastStation == s.lastStation &&
      (forall b :: b in r.buses ==> b in s.buses) && (forall st :: st in r.stations ==> st in s.stations) &&
      (forall b :: b in s.buses && !Targeted(b, categoryId, nums) ==> b in r.buses && RouteUnchanged(s, r, b.id))
    ensures var r := DeletePhase(s, categoryId, nums).value;
      r.lastCategory == s.lastCategory && r.lastTime == s.lastTime && (forall t :: t in r.times ==> t in s.times)
    ensures var r := DeletePhase(s, categoryId, nums).value;
      UniqueRoutes(s) ==>
        UniqueRoutes(r) &&
        forall b :: b in s.buses && Targeted(b, categoryId, nums) ==>
          b.id !in BusIds(r.buses) && StationsOf(r.stations, b.id) == []
    decreases |nums|
  {
    var r := DeletePhase(s, categoryId, nums).value;
    if nums == [] {
      assert forall b :: !Targeted(b, categoryId, nums);
    } else {
      var n := ToInt(nums[0]).value;
      var next := match FindBus(s.buses, n, categoryId) case Some(b) => DeleteBus(s, b.id) case None => s;
      assert r == DeletePhase(next, categoryId, nums[1..]).value;
      DeleteStep(s, categoryId, n);
      DeletePhaseEffect(next, categoryId, nums[1..]);
      forall b | b in s.buses && !Targeted(b, categoryId, nums)
        ensures b in r.buses && RouteUnchanged(s, r, b.id)
      {
        ListedCons(nums, b.num);
        RouteUnchangedTrans(s, next, r, b.id);
      }
      if UniqueRoutes(s) {
        forall b | b in s.buses && Targeted(b, categoryId, nums)
          ensures b.id !in BusIds(r.buses) && StationsOf(r.stations, b.id) == []
        {
          ListedCons(nums, b.num);
          assert b.id !in BusIds(r.buses) by {
            if b.num != n {
              assert Targeted(b, categoryId, nums[1..]);
            }
          }
          assert Consistent(r);
          assert forall st :: st in r.stations ==> st.busId in BusIds(r.buses);
          StationsOfNone(r.stations, b.id);
        }
      }
    }
  }

  /** A number is listed when the first entry parses to it or it is listed among the rest. */
  lemma ListedCons(nums: seq<string>, n: int)
    requires nums != []
    ensures Listed(nums, n) <==> ToInt(nums[0]) == Some(n) || Listed(nums[1..], n)
  {
    if Listed(nums, n) && ToInt(nums[0]) != Some(n) {
      var i :| 0 <= i < |nums| && ToInt(nums[i]) == Some(n);
      assert ToInt(nums[1..][i - 1]) == Some(n);
    }
    if Listed(nums[1..], n) {
      var i :| 0 <= i < |nums[1..]| && ToInt(nums[1..][i]) == Some(n);
      assert ToInt(nums[i + 1]) == Some(n);
    }
  }

  // ---------------------------------------------------------------- insert phase

  /** The lookup in a table with a row appended finds what it found before, or else the new row if
      that row matches. */
  lemma {:induction false} FindBusAppend(bs: seq<Bus>, b: Bus, num: int, categoryId: int)
    ensures FindBus(bs + [b], num, categoryId) ==
      if FindBus(bs, num, categoryId).Some? then FindBus(bs, num, categoryId)
      else if b.num == num && b.categoryId == categoryId then Some(b) else None
  {
    if bs != [] {
      assert (bs + [b])[1..] == bs[1..] + [b];
      FindBusAppend(bs[1..], b, num, categoryId);
    } else {
      assert [b][1..] == [];
    }
  }

  /** Once found, a row is still what the lookup finds after more rows are appended. */
  lemma {:induction false} FindBusPrefix(bs: seq<Bus>, more: seq<Bus>, num: int, categoryId: int)
    requires FindBus(bs, num, categoryId).Some?
    ensures FindBus(bs + more, num, categoryId) == FindBus(bs, num, categoryId)
  {
    if bs[0].num == num && bs[0].categoryId == categoryId {
      assert (bs + more)[0] == bs[0];
    } else {
      assert (bs + more)[1..] == bs[1..] + more;
      FindBusPrefix(bs[1..], more, num, categoryId);
    }
  }

  /** The new route inserted for a number and the database after its stops are in. */
  lemma InsertRouteStops(s: Snapshot, categoryId: int, n: int, routes: seq<Route>)
    returns (bus: Bus, s2: Snapshot)
    requires Consistent(s) && categoryId in CategoryIds(s.categories)
    requires FindBus(s.buses, n, categoryId).None?
    ensures bus == Bus(s.lastBus + 1, categoryId, n)
    ensures FindBus(InsertBus(s, categoryId, n).buses, n, categoryId) == Some(bus)
    ensures s2 == InsertStations(InsertBus(s, categoryId, n), routes, bus.id)
    ensures Consistent(s2) && s2.buses == s.buses + [bus] && s2.categories == s.categories && s2.times == s.times
    ensures s2.lastBus == s.lastBus + 1
    ensures StopsOf(StationsOf(s2.stations, bus.id)) == RouteStops(routes)
    ensures forall st :: st in StationsOf(s2.stations, bus.id) ==> st.id > s.lastStation
    ensures forall id :: id != bus.id ==> StationsOf(s2.stations, id) == StationsOf(s.stations, id)
  {
    bus := Bus(s.lastBus + 1, categoryId, n);
    var s1 := InsertBus(s, categoryId, n);
    FindBusAppend(s.buses, bus, n, categoryId);
    InsertBusConsistent(s, categoryId, n);
    s2 := InsertStations(s1, routes, bus.id);
    InsertStationsFrame(s1, routes, bus.id);
    InsertStationsAppends(s1, routes, bus.id);
    forall id | id != bus.id ensures StationsOf(s2.stations, id) == StationsOf(s.stations, id) {
      InsertStationsOthers(s1, routes, bus.id, id);
    }
    InsertStationsConsistent(s1, routes, bus.id);
    FreshBusHasNoStations(s, bus.id);
    assert StopsOf(StationsOf(s1.stations, bus.id)) == [];
    forall st | st in StationsOf(s2.stations, bus.id) ensures st.id > s.lastStation {
      assert st !in s1.stations;
    }
  }

  /** Fetching the timetables of a route whose stations are all new: each station ends up with
      exactly the timetable fetched for its link, and no other station's time rows change. */
  lemma FetchNewRoute(s: Snapshot, s2: Snapshot, busId: int, routes: seq<Route>, number: string, fetch: TimeSource)
    requires Consistent(s) && Consistent(s2) && s2.times == s.times
    requires forall st :: st in StationsOf(s2.stations, busId) ==> st.id > s.lastStation
    requires StopsOf(StationsOf(s2.stations, busId)) == RouteStops(WithNumber(routes, number))
    requires InsertTimesFor(s2, StationsOf(s2.stations, busId), fetch).Ok?
    ensures var r := InsertTimesFor(s2, StationsOf(s2.stations, busId), fetch).value;
      Consistent(r) && r == s2.(times := r.times, lastTime := r.lastTime) &&
      Loaded(r, busId, routes, number, fetch) &&
      forall y :: y !in StationIds(StationsOf(s2.stations, busId)) ==> TimesOf(r.times, y) == TimesOf(s2.times, y)
  {
    var sts := StationsOf(s2.stations, busId);
    var r := InsertTimesFor(s2, sts, fetch).value;
    StationsOfAscending(s2.stations, busId);
    InsertTimesForEffect(s2, sts, fetch);
    forall st | st in sts
      ensures fetch(st.link).Ok? && TimesView(TimesOf(r.times, st.id)) == fetch(st.link).value
    {
      FreshTimes(s, s2, r, st, fetch);
    }
  }

  lemma FreshTimes(s: Snapshot, s2: Snapshot, r: Snapshot, st: Station, fetch: TimeSource)
    requires Consistent(s) && s2.times == s.times && st.id > s.lastStation
    requires fetch(st.link).Ok?
    requires TimesView(TimesOf(r.times, st.id)) == TimesView(TimesOf(s2.times, st.id)) + fetch(st.link).value
    ensures TimesView(TimesOf(r.times, st.id)) == fetch(st.link).value
  {
    FreshStationHasNoTimes(s, st.id);
    assert TimesView([]) == [];
  }

  /** Inserting one listed route whose number has no route under the category yet: the new route,
      with an id above the counter, holds exactly the scraped stops with its number and each of
      their stations exactly the timetable fetched for its link; every other route keeps its
      stations and time rows, and the tables stay consistent. */
  lemma InsertRouteEffect(s: Snapshot, categoryId: int, isBus: bool, number: string, src: Source)
    requires InsertRoute(s, categoryId, isBus, number, src).Ok?
    requires Consistent(s) && categoryId in CategoryIds(s.categories)
    requires ToInt(number).Some? ==> FindBus(s.buses, ToInt(number).value, categoryId).None?
    ensures var r := InsertRoute(s, categoryId, isBus, number, src).value;
      var bus := Bus(s.lastBus + 1, categoryId, ToInt(number).value);
      var routes := if isBus then src.busRoutes else src.tralRoutes;
      ToInt(number).Some? && routes.Ok? &&
      Consistent(r) && r.buses == s.buses + [bus] && r.categories == s.categories &&
      r.lastBus == s.lastBus + 1 && Loaded(r, bus.id, routes.value, number, src.busTime) &&
      OthersUnchanged(s, r)
  {
    var n := ToInt(number).value;
    var routes := (if isBus then src.busRoutes else src.tralRoutes).value;
    var bus, s2 := InsertRouteStops(s, categoryId, n, WithNumber(routes, number));
    var sts := StationsOf(s2.stations, bus.id);
    var r := InsertRoute(s, categoryId, isBus, number, src).value;
    assert r == InsertTimesFor(s2, sts, src.busTime).value;
    FetchNewRoute(s, s2, bus.id, routes, number, src.busTime);
    StationIdIsKey(s2.stations);
    FreshBusHasNoStations(s, bus.id);
    forall id | id in BusIds(s.buses) ensures RouteUnchanged(s, r, id) {
      assert id != bus.id;
      forall st | st in StationsOf(s.stations, id) ensures TimesOf(r.times, st.id) == TimesOf(s.times, st.id) {
        assert st.id !in StationIds(sts);
      }
    }
  }

  /** The steps of a route insert that does not throw: the route row, the stops under the row
      the lookup finds, and the timetables of that row's stations. */
  lemma InsertRouteUnfold(s: Snapshot, categoryId: int, isBus: bool, number: string, src: Source)
    returns (s1: Snapshot, s2: Snapshot, bus: Bus)
    requires InsertRoute(s, categoryId, isBus, number, src).Ok?
    ensures ToInt(number).Some? && (if isBus then src.busRoutes else src.tralRoutes).Ok?
    ensures s1 == InsertBus(s, categoryId, ToInt(number).value)
    ensures FindBus(s1.buses, ToInt(number).value, categoryId) == Some(bus)
    ensures s2 == InsertStations(s1, WithNumber((if isBus then src.busRoutes else src.tralRoutes).value, number), bus.id)
    ensures InsertRoute(s, categoryId, isBus, number, src) == InsertTimesFor(s2, StationsOf(s2.stations, bus.id), src.busTime)
  {
    var n := ToInt(number).value;
    s1 := InsertBus(s, categoryId, n);
    bus := FindBus(s1.buses, n, categoryId).value;
    s2 := InsertStations(s1, WithNumber((if isBus then src.busRoutes else src.tralRoutes).value, number), bus.id);
  }

  /** Inserting one listed route, whatever rows are already there: the tables stay consistent and
      one route row with the next id and the parsed number is appended under the category. */
  lemma InsertRouteFrame(s: Snapshot, categoryId: int, isBus: bool, number: string, src: Source)
    requires InsertRoute(s, categoryId, isBus, number, src).Ok?
    requires Consistent(s) && categoryId in CategoryIds(s.categories)
    ensures var r := InsertRoute(s, categoryId, isBus, number, src).value;
      Consistent(r) && r.buses == s.buses + [Bus(s.lastBus + 1, categoryId, ToInt(number).value)] &&
      r.categories == s.categories && r.lastBus == s.lastBus + 1
  {
    var routes := WithNumber((if isBus then src.busRoutes else src.tralRoutes).value, number);
    var s1, s2, bus := InsertRouteUnfold(s, categoryId, isBus, number, src);
    InsertBusConsistent(s, categoryId, ToInt(number).value);
    InsertStationsConsistent(s1, routes, bus.id);
    var sts := StationsOf(s2.stations, bus.id);
    StationsOfAscending(s2.stations, bus.id);
    InsertTimesForEffect(s2, sts, src.busTime);
  }

  /** A route insert leaves every route with another (category, number) pair as it was. */
  lemma InsertRouteKeeps(s: Snapshot, categoryId: int, isBus: bool, number: string, src: Source)
    requires InsertRoute(s, categoryId, isBus, number, src).Ok?
    requires Consistent(s) && categoryId in CategoryIds(s.categories)
    ensures var r := InsertRoute(s, categoryId, isBus, number, src).value;
      forall b :: b in s.buses && !(b.categoryId == categoryId && b.num == ToInt(number).value) ==>
        RouteUnchanged(s, r, b.id)
  {
    var n := ToInt(number).value;
    var routes := WithNumber((if isBus then src.busRoutes else src.tralRoutes).value, number);
    var s1, s2, bus := InsertRouteUnfold(s, categoryId, isBus, number, src);
    InsertBusConsistent(s, categoryId, n);
    InsertStationsConsistent(s1, routes, bus.id);
    var sts := StationsOf(s2.stations, bus.id);
    var r := InsertRoute(s, categoryId, isBus, number, src).value;
    StationsOfAscending(s2.stations, bus.id);
    InsertTimesForEffect(s2, sts, src.busTime);
    BusIdIsKey(s1.buses);
    forall b | b in s.buses && !(b.categoryId == categoryId && b.num == n) ensures RouteUnchanged(s, r, b.id) {
      assert b in s1.buses && b != bus;
      InsertRouteOther(s, s1, s2, r, routes, bus.id, b.id);
    }
  }

  /** A route other than the one whose stops go in keeps its stations and their time rows. */
  lemma InsertRouteOther(s: Snapshot, s1: Snapshot, s2: Snapshot, r: Snapshot, routes: seq<Route>, busId: int, other: int)
    requires s1.stations == s.stations && s1.times == s.times
    requires s2 == InsertStations(s1, routes, busId) && other != busId
    requires StationsAscending(s2.stations) && r.stations == s2.stations
    requires forall y :: y !in StationIds(StationsOf(s2.stations, busId)) ==> TimesOf(r.times, y) == TimesOf(s2.times, y)
    ensures RouteUnchanged(s, r, other)
  {
    InsertStationsOthers(s1, routes, busId, other);
    StationIdIsKey(s2.stations);
    forall st | st in StationsOf(s.stations, other) ensures TimesOf(r.times, st.id) == TimesOf(s.times, st.id) {
      assert st.id !in StationIds(StationsOf(s2.stations, busId));
    }
  }

  /** A route insert only adds stations, with ids above the old counter. */
  lemma InsertRouteStations(s: Snapshot, categoryId: int, isBus: bool, number: string, src: Source)
    requires InsertRoute(s, categoryId, isBus, number, src).Ok?
    ensures StationsAdded(s, InsertRoute(s, categoryId, isBus, number, src).value)
  {
    var routes := WithNumber((if isBus then src.busRoutes else src.tralRoutes).value, number);
    var s1, s2, bus := InsertRouteUnfold(s, categoryId, isBus, number, src);
    InsertStationsFrame(s1, routes, bus.id);
    InsertTimesForFrame(s2, StationsOf(s2.stations, bus.id), src.busTime);
  }

  /** Every station of r is a station of s or has an id above the counter of s. */
  ghost predicate StationsAdded(s: Snapshot, r: Snapshot) {
    s.lastStation <= r.lastStation &&
    forall st :: st in r.stations ==> st in s.stations || st.id > s.lastStation
  }

  /** The rows the insert phase adds to s, giving r: the old route rows stay first and every new one,
      with an id above the old counter, carries a listed number under the category; the tables are
      consistent. */
  ghost predicate Appended(s: Snapshot, r: Snapshot, categoryId: int, nums: seq<string>) {
    Consistent(r) && r.categories == s.categories && r.lastBus == s.lastBus + |nums| &&
    |s.buses| <= |r.buses| && r.buses[..|s.buses|] == s.buses &&
    (forall b :: b in r.buses[|s.buses|..] ==> b.id > s.lastBus && Targeted(b, categoryId, nums))
  }

  /** Every listed number has a route in r, with an id above the counter of s, that the lookup by
      number finds and that holds exactly the scraped stops with that number and their fetched
      timetables. */
  ghost predicate AllLoaded(s: Snapshot, r: Snapshot, categoryId: int, isBus: bool, nums: seq<string>, src: Source) {
    var routes := if isBus then src.busRoutes else src.tralRoutes;
    forall i :: 0 <= i < |nums| ==>
      ToInt(nums[i]).Some? && routes.Ok? &&
      FindBus(r.buses, ToInt(nums[i]).value, categoryId).Some? &&
      FindBus(r.buses, ToInt(nums[i]).value, categoryId).value.id > s.lastBus &&
      Loaded(r, FindBus(r.buses, ToInt(nums[i]).value, categoryId).value.id, routes.value, nums[i], src.busTime)
  }

  /** Every route of s keeps its stations and their time rows in r. */
  ghost predicate OthersUnchanged(s: Snapshot, r: Snapshot) {
    forall id :: id in BusIds(s.buses) ==> RouteUnchanged(s, r, id)
  }

  /** One turn of the insert loop that does not throw, and the rest of the loop after it. */
  lemma InsertPhaseUnfold(s: Snapshot, categoryId: int, isBus: bool, nums: seq<string>, src: Source)
    returns (next: Snapshot)
    requires nums != [] && InsertPhase(s, categoryId, isBus, nums, src).Ok?
    ensures InsertRoute(s, categoryId, isBus, nums[0], src) == Ok(next)
    ensures InsertPhase(next, categoryId, isBus, nums[1..], src).Ok?
    ensures InsertPhase(s, categoryId, isBus, nums, src) == InsertPhase(next, categoryId, isBus, nums[1..], src)
  {
    next := InsertRoute(s, categoryId, isBus, nums[0], src).value;
  }

  /** The insert phase, whatever rows are already there: it appends route rows with ids above the
      old counter, each under the category with a listed number; the tables stay consistent and
      every untargeted route keeps its stations and their time rows. */
  lemma {:induction false} InsertPhaseFrame(s: Snapshot, categoryId: int, isBus: bool, nums: seq<string>, src: Source)
    requires InsertPhase(s, categoryId, isBus, nums, src).Ok?
    requires Consistent(s) && categoryId in CategoryIds(s.categories)
    ensures var r := InsertPhase(s, categoryId, isBus, nums, src).value;
      Appended(s, r, categoryId, nums) &&
      forall b :: b in s.buses && !Targeted(b, categoryId, nums) ==> RouteUnchanged(s, r, b.id)
    decreases |nums|
  {
    var r := InsertPhase(s, categoryId, isBus, nums, src).value;
    if nums == [] {
      assert r.buses[|s.buses|..] == [];
    } else {
      var next := InsertPhaseUnfold(s, categoryId, isBus, nums, src);
      var bus := Bus(s.lastBus + 1, categoryId, ToInt(nums[0]).value);
      InsertRouteFrame(s, categoryId, isBus, nums[0], src);
      InsertRouteKeeps(s, categoryId, isBus, nums[0], src);
      InsertPhaseFrame(next, categoryId, isBus, nums[1..], src);
      InsertPhaseFrameStep(s, next, r, bus, categoryId, nums);
    }
  }

  /** The first listed number's route followed by the rest of the phase keeps what the whole phase
      keeps. */
  lemma InsertPhaseFrameStep(s: Snapshot, next: Snapshot, r: Snapshot, bus: Bus, categoryId: int, nums: seq<string>)
    requires nums != [] && ToInt(nums[0]) == Some(bus.num) && bus.categoryId == categoryId
    requires bus.id == s.lastBus + 1 && next.buses == s.buses + [bus]
    requires next.categories == s.categories && next.lastBus == s.lastBus + 1
    requires forall b :: b in s.buses && !(b.categoryId == categoryId && b.num == bus.num) ==> RouteUnchanged(s, next, b.id)
    requires Appended(next, r, categoryId, nums[1..])
    requires forall b :: b in next.buses && !Targeted(b, categoryId, nums[1..]) ==> RouteUnchanged(next, r, b.id)
    ensures Appended(s, r, categoryId, nums)
    ensures forall b :: b in s.buses && !Targeted(b, categoryId, nums) ==> RouteUnchanged(s, r, b.id)
  {
    CombineAppended(s, next, r, bus, categoryId, nums);
    forall b | b in s.buses && !Targeted(b, categoryId, nums) ensures RouteUnchanged(s, r, b.id) {
      ListedCons(nums, b.num);
      assert b in next.buses;
      RouteUnchangedTrans(s, next, r, b.id);
    }
  }

  /** Every station after the insert phase is an old one or has an id above the old counter. */
  lemma {:induction false} InsertPhaseStations(s: Snapshot, categoryId: int, isBus: bool, nums: seq<string>, src: Source)
    requires InsertPhase(s, categoryId, isBus, nums, src).Ok?
    ensures StationsAdded(s, InsertPhase(s, categoryId, isBus, nums, src).value)
    decreases |nums|
  {
    if nums != [] {
      var next := InsertPhaseUnfold(s, categoryId, isBus, nums, src);
      InsertRouteStations(s, categoryId, isBus, nums[0], src);
      InsertPhaseStations(next, categoryId, isBus, nums[1..], src);
      StationsAddedTrans(s, next, InsertPhase(next, categoryId, isBus, nums[1..], src).value);
    }
  }

  lemma StationsAddedTrans(s: Snapshot, t: Snapshot, u: Snapshot)
    requires StationsAdded(s, t) && StationsAdded(t, u)
    ensures StationsAdded(s, u)
  {
  }

  /** The insert phase, run after the delete phase has left no listed number under the category
      and with no number listed twice: every listed number gets a new route, with an id above the
      old counter, that the lookup by number finds and that holds exactly the scraped stops with
      that number and their fetched timetables; the routes already there keep their stations and
      time rows, and the tables stay consistent. */
  lemma {:induction false} InsertPhaseEffect(s: Snapshot, categoryId: int, isBus: bool, nums: seq<string>, src: Source)
    requires InsertPhase(s, categoryId, isBus, nums, src).Ok?
    requires Consistent(s) && categoryId in CategoryIds(s.categories)
    requires DistinctNumbers(nums)
    requires forall b :: b in s.buses ==> !Targeted(b, categoryId, nums)
    ensures var r := InsertPhase(s, categoryId, isBus, nums, src).value;
      Appended(s, r, categoryId, nums) && AllLoaded(s, r, categoryId, isBus, nums, src) && OthersUnchanged(s, r)
    ensures UniqueRoutes(s) ==> UniqueRoutes(InsertPhase(s, categoryId, isBus, nums, src).value)
    decreases |nums|
  {
    if nums != [] {
      var n := ToInt(nums[0]).value;
      var next := InsertPhaseUnfold(s, categoryId, isBus, nums, src);
      var r := InsertPhase(s, categoryId, isBus, nums, src).value;
      var bus := Bus(s.lastBus + 1, categoryId, n);
      assert FindBus(s.buses, n, categoryId).None? by {
        assert forall b :: b in s.buses && b.categoryId == categoryId ==> b.num != n by {
          forall b | b in s.buses && b.categoryId == categoryId ensures b.num != n {
            assert !Listed(nums, b.num);
          }
        }
      }
      InsertRouteEffect(s, categoryId, isBus, nums[0], src);
      if UniqueRoutes(s) {
        UniqueAppend(s, next, bus);
      }
      InsertPhaseRest(s, next, bus, categoryId, nums);
      InsertPhaseEffect(next, categoryId, isBus, nums[1..], src);
      CombineAppended(s, next, r, bus, categoryId, nums);
      assert bus.id in BusIds(next.buses);
      CombineLoaded(s, next, r, bus, categoryId, isBus, nums, src);
      CombineUnchanged(s, next, r);
    }
  }

  /** A route row whose (category, number) no row had keeps the pairs unique. */
  lemma UniqueAppend(s: Snapshot, next: Snapshot, bus: Bus)
    requires UniqueRoutes(s) && next.buses == s.buses + [bus]
    requires FindBus(s.buses, bus.num, bus.categoryId).None?
    ensures UniqueRoutes(next)
  {
  }

  /** After the first listed number is in, the rest of the list still meets the insert phase's
      preconditions. */
  lemma InsertPhaseRest(s: Snapshot, next: Snapshot, bus: Bus, categoryId: int, nums: seq<string>)
    requires nums != [] && ToInt(nums[0]) == Some(bus.num)
    requires DistinctNumbers(nums)
    requires forall b :: b in s.buses ==> !Targeted(b, categoryId, nums)
    requires next.buses == s.buses + [bus]
    ensures DistinctNumbers(nums[1..])
    ensures forall b :: b in next.buses ==> !Targeted(b, categoryId, nums[1..])
  {
    forall b, i | b in next.buses && b.categoryId == categoryId && 0 <= i < |nums[1..]|
      ensures ToInt(nums[1..][i]) != Some(b.num)
    {
      assert nums[1..][i] == nums[i + 1];
      if b == bus {
        assert ToInt(nums[0]) != ToInt(nums[i + 1]);
      } else {
        assert !Listed(nums, b.num);
      }
    }
  }

  /** The first listed number's route followed by the rest of the phase adds the rows of the whole
      phase. */
  lemma CombineAppended(s: Snapshot, next: Snapshot, r: Snapshot, bus: Bus, categoryId: int, nums: seq<string>)
    requires nums != [] && ToInt(nums[0]) == Some(bus.num) && bus.categoryId == categoryId
    requires bus.id == s.lastBus + 1 && next.buses == s.buses + [bus]
    requires next.categories == s.categories && next.lastBus == s.lastBus + 1
    requires Appended(next, r, categoryId, nums[1..])
    ensures Appended(s, r, categoryId, nums)
  {
    var added := r.buses[|next.buses|..];
    SplitPrefix(r.buses, next.buses, s.buses, bus);
    forall b | b in r.buses[|s.buses|..] ensures b.id > s.lastBus && Targeted(b, categoryId, nums) {
      if b != bus {
        assert b in added;
        var j :| 0 <= j < |nums[1..]| && ToInt(nums[1..][j]) == Some(b.num);
        assert ToInt(nums[j + 1]) == Some(b.num);
      }
    }
  }

  /** The first listed number's route, loaded and left alone by the rest of the phase, joins the
      routes the rest of the phase loaded. */
  lemma CombineLoaded(s: Snapshot, next: Snapshot, r: Snapshot, bus: Bus,
                      categoryId: int, isBus: bool, nums: seq<string>, src: Source)
    requires nums != [] && ToInt(nums[0]) == Some(bus.num) && bus.categoryId == categoryId
    requires bus.id == s.lastBus + 1 && next.buses == s.buses + [bus] && next.lastBus == s.lastBus + 1
    requires FindBus(s.buses, bus.num, categoryId).None?
    requires var routes := if isBus then src.busRoutes else src.tralRoutes;
      routes.Ok? && Loaded(next, bus.id, routes.value, nums[0], src.busTime)
    requires |next.buses| <= |r.buses| && r.buses[..|next.buses|] == next.buses
    requires RouteUnchanged(next, r, bus.id)
    requires AllLoaded(next, r, categoryId, isBus, nums[1..], src)
    ensures AllLoaded(s, r, categoryId, isBus, nums, src)
  {
    var routes := if isBus then src.busRoutes else src.tralRoutes;
    var added := r.buses[|next.buses|..];
    assert r.buses == next.buses + added;
    FindBusAppend(s.buses, bus, bus.num, categoryId);
    FindBusPrefix(next.buses, added, bus.num, categoryId);
    LoadedKept(next, r, bus.id, routes.value, nums[0], src.busTime);
    forall i | 0 <= i < |nums|
      ensures ToInt(nums[i]).Some? && routes.Ok? &&
        FindBus(r.buses, ToInt(nums[i]).value, categoryId).Some? &&
        FindBus(r.buses, ToInt(nums[i]).value, categoryId).value.id > s.lastBus &&
        Loaded(r, FindBus(r.buses, ToInt(nums[i]).value, categoryId).value.id, routes.value, nums[i], src.busTime)
    {
      if i > 0 {
        assert nums[i] == nums[1..][i - 1];
      }
    }
  }

  lemma CombineUnchanged(s: Snapshot, next: Snapshot, r: Snapshot)
    requires OthersUnchanged(s, next) && OthersUnchanged(next, r)
    requires forall b :: b in s.buses ==> b in next.buses
    ensures OthersUnchanged(s, r)
  {
    forall id | id in BusIds(s.buses) ensures RouteUnchanged(s, r, id) {
      assert id in BusIds(next.buses);
      RouteUnchangedTrans(s, next, r, id);
    }
  }

  /** A table that starts with the old rows and one new row splits into those and what follows. */
  lemma SplitPrefix<T>(a: seq<T>, p: seq<T>, q: seq<T>, x: T)
    requires |p| <= |a| && a[..|p|] == p && p == q + [x]
    ensures a == p + a[|p|..]
    ensures a[..|q|] == q
    ensures a[|q|..] == [x] + a[|p|..]
  {
    assert a == a[..|p|] + a[|p|..];
    assert a[..|q|] == p[..|q|];
    assert a[|q|..] == a[|q|..|p|] + a[|p|..];
    assert a[|q|..|p|] == p[|q|..];
  }

  // ---------------------------------------------------------------- the whole patch

  /** How the patch ends: the category is missing exactly when the lookup by its name finds
      nothing, and a listed number that does not parse makes it fail before anything is inserted. */
  lemma UpdateOutcome(s: Snapshot, transportType: string, nums: seq<string>, src: Source)
    ensures Update(s, transportType, nums, src).CategoryNotFound? <==>
      forall c :: c in s.categories ==> c.name != transportType
    ensures (exists c :: c in s.categories && c.name == transportType) &&
            (exists x :: x in nums && ToInt(x).None?) ==>
      Update(s, transportType, nums, src) == Failed(BadNumber)
  {
  }

  /** The steps of a patch that completes: the category lookup hits, then the delete phase and the
      insert phase both complete. */
  lemma UpdateUnfold(s: Snapshot, transportType: string, nums: seq<string>, src: Source)
    returns (cat: Category, s1: Snapshot)
    requires Update(s, transportType, nums, src).Patched?
    ensures FindCategory(s.categories, transportType) == Some(cat)
    ensures DeletePhase(s, cat.id, nums) == Ok(s1)
    ensures InsertPhase(s1, cat.id, transportType == BUS_CATEGORY, nums, src) == Ok(Update(s, transportType, nums, src).db)
  {
    cat := FindCategory(s.categories, transportType).value;
    s1 := DeletePhase(s, cat.id, nums).value;
  }

  /** A patch that completes, whatever rows are already there: the tables stay consistent, every
      route the patch does not target keeps its row, its stations and their time rows, and every
      route row afterwards is an old one or a new one, with an id no row had before, under the
      category with a listed number. */
  lemma UpdateFrame(s: Snapshot, transportType: string, nums: seq<string>, src: Source)
    requires Consistent(s)
    requires Update(s, transportType, nums, src).Patched?
    ensures FindCategory(s.categories, transportType).Some?
    ensures var categoryId := FindCategory(s.categories, transportType).value.id;
      var r := Update(s, transportType, nums, src).db;
      Consistent(r) && r.categories == s.categories &&
      (forall b :: b in s.buses && !Targeted(b, categoryId, nums) ==> b in r.buses && RouteUnchanged(s, r, b.id)) &&
      (forall b :: b in r.buses ==> b in s.buses || (b.id > s.lastBus && Targeted(b, categoryId, nums)))
  {
    var cat, s1 := UpdateUnfold(s, transportType, nums, src);
    DeletePhaseEffect(s, cat.id, nums);
    assert cat.id in CategoryIds(s1.categories);
    InsertPhaseFrame(s1, cat.id, transportType == BUS_CATEGORY, nums, src);
    PhasesFrame(s, s1, Update(s, transportType, nums, src).db, cat.id, nums);
  }

  /** The delete phase from s to s1 followed by the insert phase from s1 to r keeps what each keeps. */
  lemma PhasesFrame(s: Snapshot, s1: Snapshot, r: Snapshot, categoryId: int, nums: seq<string>)
    requires s1.lastBus == s.lastBus && forall b :: b in s1.buses ==> b in s.buses
    requires forall b :: b in s.buses && !Targeted(b, categoryId, nums) ==> b in s1.buses && RouteUnchanged(s, s1, b.id)
    requires Appended(s1, r, categoryId, nums)
    requires forall b :: b in s1.buses && !Targeted(b, categoryId, nums) ==> RouteUnchanged(s1, r, b.id)
    ensures forall b :: b in s.buses && !Targeted(b, categoryId, nums) ==> b in r.buses && RouteUnchanged(s, r, b.id)
    ensures forall b :: b in r.buses ==> b in s.buses || (b.id > s.lastBus && Targeted(b, categoryId, nums))
  {
    assert r.buses == s1.buses + r.buses[|s1.buses|..];
    forall b | b in s.buses && !Targeted(b, categoryId, nums) ensures b in r.buses && RouteUnchanged(s, r, b.id) {
      RouteUnchangedTrans(s, s1, r, b.id);
    }
    forall b | b in r.buses ensures b in s.buses || (b.id > s.lastBus && Targeted(b, categoryId, nums)) {
      if b !in s1.buses {
        assert b in r.buses[|s1.buses|..];
      }
    }
  }

  /** The stations of the routes the delete phase removed are not brought back by the insert
      phase, which only adds stations with fresh ids; with them go all their time rows. */
  lemma UpdateGone(s: Snapshot, s1: Snapshot, r: Snapshot, categoryId: int, nums: seq<string>)
    requires Consistent(s) && Consistent(r) && s1.lastStation == s.lastStation
    requires forall st :: st in s1.stations ==> st in s.stations
    requires StationsAdded(s1, r)
    requires forall b :: b in s.buses && Targeted(b, categoryId, nums) ==> StationsOf(s1.stations, b.id) == []
    ensures forall b, st :: b in s.buses && Targeted(b, categoryId, nums) && st in StationsOf(s.stations, b.id) ==>
      st.id !in StationIds(r.stations) && TimesOf(r.times, st.id) == []
  {
    StationIdIsKey(s.stations);
    forall b, st | b in s.buses && Targeted(b, categoryId, nums) && st in StationsOf(s.stations, b.id)
      ensures st.id !in StationIds(r.stations) && TimesOf(r.times, st.id) == []
    {
      assert st !in s1.stations;
      TimesOfNone(r.times, st.id);
    }
  }

  /** A patch that completes, on consistent tables with one route per (category, number) and with
      no number listed twice, replaces every listed route of the category: the old row is gone (and
      with it its stations and their time rows), and the lookup by number finds a new route, with an
      id no row had before, holding exactly the scraped stops with that number and their fetched
      timetables. Every other route keeps its row, its stations and their time rows; every route row
      afterwards is one of those or one of the new ones; the tables stay consistent and keep one
      route per (category, number). */
  lemma UpdateEffect(s: Snapshot, transportType: string, nums: seq<string>, src: Source)
    requires Consistent(s) && UniqueRoutes(s) && DistinctNumbers(nums)
    requires Update(s, transportType, nums, src).Patched?
    ensures FindCategory(s.categories, transportType).Some?
    ensures var categoryId := FindCategory(s.categories, transportType).value.id;
      var r := Update(s, transportType, nums, src).db;
      var routes := if transportType == BUS_CATEGORY then src.busRoutes else src.tralRoutes;
      Consistent(r) && r.categories == s.categories &&
      (forall b :: b in s.buses && Targeted(b, categoryId, nums) ==>
         b.id !in BusIds(r.buses) && StationsOf(r.stations, b.id) == []) &&
      (forall b :: b in s.buses && !Targeted(b, categoryId, nums) ==> b in r.buses && RouteUnchanged(s, r, b.id)) &&
      (forall i :: 0 <= i < |nums| ==>
         ToInt(nums[i]).Some? && routes.Ok? &&
         FindBus(r.buses, ToInt(nums[i]).value, categoryId).Some? &&
         FindBus(r.buses, ToInt(nums[i]).value, categoryId).value.id > s.lastBus &&
         Loaded(r, FindBus(r.buses, ToInt(nums[i]).value, categoryId).value.id, routes.value, nums[i], src.busTime))
    ensures var categoryId := FindCategory(s.categories, transportType).value.id;
      var r := Update(s, transportType, nums, src).db;
      UniqueRoutes(r) &&
      (forall b :: b in r.buses ==>
         (b in s.buses && !Targeted(b, categoryId, nums)) || (b.id > s.lastBus && Targeted(b, categoryId, nums))) &&
      (forall b, st :: b in s.buses && Targeted(b, categoryId, nums) && st in StationsOf(s.stations, b.id) ==>
         st.id !in StationIds(r.stations) && TimesOf(r.times, st.id) == [])
  {
    var isBus := transportType == BUS_CATEGORY;
    var cat, s1 := UpdateUnfold(s, transportType, nums, src);
    var r := Update(s, transportType, nums, src).db;
    DeletePhaseEffect(s, cat.id, nums);
    forall b | b in s1.buses ensures !Targeted(b, cat.id, nums) {
      assert b in s.buses && b.id in BusIds(s1.buses);
    }
    assert cat.id in CategoryIds(s1.categories);
    InsertPhaseEffect(s1, cat.id, isBus, nums, src);
    UpdateKeeps(s, s1, r, cat.id, isBus, nums, src);
    UpdateFrame(s, transportType, nums, src);
    InsertPhaseStations(s1, cat.id, isBus, nums, src);
    UpdateGone(s, s1, r, cat.id, nums);
  }

  /** The routes the delete phase removed do not come back, and the others survive the insert
      phase unchanged. */
  lemma UpdateKeeps(s: Snapshot, s1: Snapshot, r: Snapshot, categoryId: int, isBus: bool, nums: seq<string>, src: Source)
    requires Consistent(s) && s1.lastBus == s.lastBus
    requires forall b :: b in s.buses && Targeted(b, categoryId, nums) ==> b.id !in BusIds(s1.buses)
    requires forall b :: b in s.buses && !Targeted(b, categoryId, nums) ==> b in s1.buses && RouteUnchanged(s, s1, b.id)
    requires Appended(s1, r, categoryId, nums) && OthersUnchanged(s1, r)
    ensures forall b :: b in s.buses && Targeted(b, categoryId, nums) ==>
      b.id !in BusIds(r.buses) && StationsOf(r.stations, b.id) == []
    ensures forall b :: b in s.buses && !Targeted(b, categoryId, nums) ==> b in r.buses && RouteUnchanged(s, r, b.id)
  {
    assert r.buses == s1.buses + r.buses[|s1.buses|..];
    forall b | b in s.buses && Targeted(b, categoryId, nums)
      ensures b.id !in BusIds(r.buses) && StationsOf(r.stations, b.id) == []
    {
      forall c | c in r.buses ensures c.id != b.id {
        if c !in s1.buses {
          assert c in r.buses[|s1.buses|..];
        }
      }
      StationsOfNone(r.stations, b.id);
    }
    forall b | b in s.buses && !Targeted(b, categoryId, nums) ensures b in r.buses && RouteUnchanged(s, r, b.id) {
      assert b.id in BusIds(s1.buses);
      RouteUnchangedTrans(s, s1, r, b.id);
    }
  }
}

=== FILE: plugin.dfy ===
/** One hourly check of MyPlugin: compare the site's update date with the stored marker and, when
    they differ, rebuild or patch the schedule database and write the marker. The database lives in
    two files, the one served to clients (grodno_bus.db, the final file) and the one being built
    (grodno_bus_temp.db, the temp file); a build only ever writes the temp file, and the final file
    is replaced by renaming the temp file onto it once every statement has succeeded. */
module Plugin {
  import opened Wrappers
  import opened Numbers
  import opened Tables
  import opened Steps
  import Build
  import Patch
  import Store
  import Writer

  /** The final file, the temp file and the marker file (the date of the last processed update);
      None for a file that does not exist. */
  datatype Files = Files(final: Option<Snapshot>, temp: Option<Snapshot>, marker: Option<string>)

  /** Whether each call into the file system or the JDBC driver succeeds when the cycle makes it. */
  datatype Env = Env(
    markerReadOk: bool,   // lastUpdateFile.readText
    markerWriteOk: bool,  // lastUpdateFile.writeText
    driverOk: bool,       // Class.forName("org.sqlite.JDBC")
    copyOk: bool,         // finalDbFile.copyTo(tempDbFile, overwrite = true)
    createOk: bool,       // tempDbFile.delete() and tempDbFile.createNewFile()
    connectOk: bool,      // DriverManager.getConnection on the temp file
    renameOk: bool)       // tempDbFile.renameTo(finalDbFile)

  /** What fetchChangedRoutes found: the category of the latest change and its route numbers. */
  datatype Changes = Changes(transportType: string, routes: seq<string>)

  // ---------------------------------------------------------------- the cycle as functions

  /** readLastUpdateDate: the marker when it can be read, and null when it is absent or unreadable. */
  function StoredDate(f: Files, env: Env): (r: Option<string>)
    ensures env.markerReadOk ==> r == f.marker
    ensures !env.markerReadOk ==> r.None?
  {
    if env.markerReadOk then f.marker else None
  }

  /** newDate != null && newDate != lastDate: no fetched date never triggers an update, and a
      fetched date triggers one exactly when it differs from the stored one (absent or not). */
  function NeedsUpdate(fetched: Option<string>, stored: Option<string>): (r: bool)
    ensures fetched.None? ==> !r
    ensures fetched.Some? ==> (r <==> stored != fetched)
  {
    fetched.Some? && fetched != stored
  }

  /** Delete the final file, then rename the temp file onto it. renameTo reports failure by its
      result, which is ignored: the final file is then gone and the temp file stays. */
  function Install(f: Files, built: Snapshot, env: Env): (r: Files)
    ensures r.marker == f.marker
    // the final file ends up holding the build or nothing, and the temp file keeps the build
    // exactly when the rename failed
    ensures r.final == if env.renameOk then Some(built) else None
    ensures r.temp == if env.renameOk then None else Some(built)
  {
    if env.renameOk then f.(final := Some(built), temp := None)
    else f.(final := None, temp := Some(built))
  }

  /** performFullParse: a new temp file, the build on it, and the swap; an exception in the build
      deletes the temp file. */
  function FullParse(f: Files, src: Source, env: Env): (r: Files)
    ensures r.marker == f.marker
    // the final file changes only to a completed build, or is lost with a failed rename
    ensures r.final != f.final ==>
      Build.Populate(EMPTY, src).Ok? && r.final in {Some(Build.Populate(EMPTY, src).value), None}
    // a build that throws leaves no temp file once the temp file could be created
    ensures env.driverOk && env.createOk && env.connectOk && Build.Populate(EMPTY, src).Err? ==> r == f.(temp := None)
  {
    if !env.driverOk then f
    else if !env.createOk then f.(temp := None)
    else if !env.connectOk then f.(temp := Some(EMPTY))
    else
      match Build.Populate(EMPTY, src)
      case Err(_) => f.(temp := None)
      case Ok(built) => Install(f, built, env)
  }

  /** parseAndSaveToDb: a full build when there is no final file; otherwise, when the site lists
      changed routes, the patch on a copy of the final file and the swap. An exception in the patch
      deletes the temp file; a category the database does not hold leaves the copy in place. */
  function SaveToDb(f: Files, changes: Option<Changes>, src: Source, env: Env): (r: Files)
    ensures r.marker == f.marker
    // with a final file and no changed route listed, no file is touched
    ensures f.final.Some? && (changes.None? || changes.value.routes == []) ==> r == f
  {
    if f.final.None? then FullParse(f, src, env)
    else if changes.None? || changes.value.routes == [] then f
    else if !env.driverOk || !env.copyOk then f
    else if !env.connectOk then f.(temp := f.final)
    else
      match Patch.Update(f.final.value, changes.value.transportType, changes.value.routes, src)
      case CategoryNotFound => f.(temp := f.final)
      case Failed(_) => f.(temp := None)
      case Patched(built) => Install(f, built, env)
  }

  /** checkAndUpdateIfNeeded: when the fetched date is there and differs from the stored one,
      parseAndSaveToDb and then saveLastUpdateDate, whatever parseAndSaveToDb did. */
  function Cycle(f: Files, fetched: Option<string>, changes: Option<Changes>, src: Source, env: Env): (r: Files)
    ensures !NeedsUpdate(fetched, StoredDate(f, env)) ==> r == f
    ensures r.marker in {f.marker, fetched}
  {
    if !NeedsUpdate(fetched, StoredDate(f, env)) then f
    else
      var g := SaveToDb(f, changes, src, env);
      if env.markerWriteOk then g.(marker := fetched) else g
  }

  /** The database a run of the statements produces, when they run and succeed: the full build
      when there is no final file, the patch of the final file when changes are listed. */
  function Built(f: Files, changes: Option<Changes>, src: Source): Option<Snapshot> {
    if f.final.None? then
      match Build.Populate(EMPTY, src)
      case Ok(built) => Some(built)
      case Err(_) => None
    else if changes.None? || changes.value.routes == [] then None
    else
      match Patch.Update(f.final.value, changes.value.transportType, changes.value.routes, src)
      case Patched(built) => Some(built)
      case _ => None
  }

  // ---------------------------------------------------------------- the plugin's state

  class Plugin {
    var final: Option<Snapshot>
    var temp: Option<Snapshot>
    var marker: Option<string>

    function State(): Files
      reads this
    {
      Files(final, temp, marker)
    }

    constructor(f: Files)
      ensures State() == f
    {
      final, temp, marker := f.final, f.temp, f.marker;
    }

    /** finalDbFile.delete(); tempDbFile.renameTo(finalDbFile) */
    method Swap(built: Snapshot, env: Env)
      modifies this
      ensures State() == Install(old(State()), built, env)
    {
      final := None;
      temp := Some(built);
      if env.renameOk {
        final := temp;
        temp := None;
      }
    }

    method PerformFullParse(src: Source, env: Env)
      modifies this
      ensures State() == FullParse(old(State()), src, env)
    {
      if !env.driverOk {
        return;
      }
      if !env.createOk {
        temp := None;
        return;
      }
      temp := Some(EMPTY);
      if !env.connectOk {
        return;
      }
      var db := new Store.Database.Create();
      var r := Writer.Populate(db, src);
      if r.Fail? {
        temp := None;
        return;
      }
      Swap(db.Contents(), env);
    }

    method ParseAndSaveToDb(changes: Option<Changes>, src: Source, env: Env)
      modifies this
      ensures State() == SaveToDb(old(State()), changes, src, env)
    {
      if final.None? {
        PerformFullParse(src, env);
        return;
      }
      if changes.None? || changes.value.routes == [] {
        return;
      }
      if !env.driverOk || !env.copyOk {
        return;
      }
      temp := final;
      if !env.connectOk {
        return;
      }
      var db := new Store.Database.Open(temp.value);
      var status := Writer.Update(db, changes.value.transportType, changes.value.routes, src);
      match status
      case CategoryNotFound =>
      case Failed(_) =>
        temp := None;
      case Patched =>
        Swap(db.Contents(), env);
    }

    method CheckAndUpdateIfNeeded(fetched: Option<string>, changes: Option<Changes>, src: Source, env: Env)
      modifies this
      ensures State() == Cycle(old(State()), fetched, changes, src, env)
    {
      var stored := if env.markerReadOk then marker else None;
      if fetched.Some? && fetched != stored {
        ParseAndSaveToDb(changes, src, env);
        if env.markerWriteOk {
          marker := fetched;
        }
      }
    }
  }

  // ---------------------------------------------------------------- properties of the cycle

  /** A cycle does database work or writes the marker only when the fetched date is there and
      differs from the stored one; when it is, the marker holds the fetched date afterwards (if it
      can be written) whatever the build or patch did: with no changes listed, a missing category,
      an exception or a failed rename. */
  lemma CycleMarker(f: Files, fetched: Option<string>, changes: Option<Changes>, src: Source, env: Env)
    ensures var g := Cycle(f, fetched, changes, src, env);
      (g.final != f.final || g.temp != f.temp || g.marker != f.marker) ==> NeedsUpdate(fetched, StoredDate(f, env))
    ensures var g := Cycle(f, fetched, changes, src, env);
      g.marker == if NeedsUpdate(fetched, StoredDate(f, env)) && env.markerWriteOk then fetched else f.marker
  {
  }

  /** Without a final file only the full build runs: the listed changes are never consulted. */
  lemma FullParseIgnoresChanges(f: Files, c1: Option<Changes>, c2: Option<Changes>, src: Source, env: Env)
    requires f.final.None?
    ensures SaveToDb(f, c1, src, env) == SaveToDb(f, c2, src, env)
    ensures Built(f, c1, src) == Built(f, c2, src)
  {
  }

  /** The final file changes only when a build or a patch has succeeded: it then holds that
      database, or is gone when the rename failed. */
  lemma FinalOnlyFromBuilt(f: Files, changes: Option<Changes>, src: Source, env: Env)
    ensures var g := SaveToDb(f, changes, src, env);
      g.final == f.final ||
      (Built(f, changes, src).Some? && g.final == if env.renameOk then Built(f, changes, src) else None)
  {
    if f.final.Some? && changes.Some? && changes.value.routes != [] && env.driverOk && env.copyOk && env.connectOk {
      match Patch.Update(f.final.value, changes.value.transportType, changes.value.routes, src)
      case CategoryNotFound =>
      case Failed(_) =>
      case Patched(built) =>
    }
  }

  /** With every file and driver call succeeding, a successful build or patch is installed as the
      final file and the temp file is gone. */
  lemma BuiltInstalled(f: Files, changes: Option<Changes>, src: Source, env: Env)
    requires env.driverOk && env.connectOk && env.renameOk
    requires if f.final.None? then env.createOk else env.copyOk
    requires Built(f, changes, src).Some?
    ensures SaveToDb(f, changes, src, env).final == Built(f, changes, src)
    ensures SaveToDb(f, changes, src, env).temp == None
  {
    if f.final.Some? {
      match Patch.Update(f.final.value, changes.value.transportType, changes.value.routes, src)
      case Patched(built) =>
    }
  }

  /** A build or patch that throws leaves the final file as it was and deletes the temp file. */
  lemma FailureIsolated(f: Files, changes: Option<Changes>, src: Source, env: Env)
    requires env.driverOk && env.connectOk
    requires f.final.None? ==> env.createOk && Build.Populate(EMPTY, src).Err?
    requires f.final.Some? ==> (env.copyOk && changes.Some? && changes.value.routes != [] &&
      Patch.Update(f.final.value, changes.value.transportType, changes.value.routes, src).Failed?)
    ensures SaveToDb(f, changes, src, env).final == f.final
    ensures SaveToDb(f, changes, src, env).temp == None
  {
  }

  /** A category name the final database does not hold stops the patch before any statement:
      the final file is as it was, and the temp file holds its unchanged copy. */
  lemma CategoryMissingKeepsFinal(f: Files, changes: Option<Changes>, src: Source, env: Env)
    requires f.final.Some? && changes.Some? && changes.value.routes != []
    requires env.driverOk && env.copyOk
    requires forall c :: c in f.final.value.categories ==> c.name != changes.value.transportType
    ensures SaveToDb(f, changes, src, env).final == f.final
    ensures SaveToDb(f, changes, src, env).temp == f.final
    ensures Built(f, changes, src).None?
  {
    Patch.UpdateOutcome(f.final.value, changes.value.transportType, changes.value.routes, src);
  }

  /** A cycle that installs a patch of consistent tables serves consistent tables in which every
      route the patch did not target keeps its row, its stations and their time rows, and every
      other route row is a new one under the category with a listed number. When the old tables
      had one route per (category, number) and no number is listed twice, every targeted route's
      old row is gone and the served tables still have one route per (category, number). */
  lemma PatchCycleKeepsOthers(f: Files, fetched: Option<string>, changes: Option<Changes>, src: Source, env: Env)
    requires f.final.Some? && Consistent(f.final.value) && changes.Some?
    requires NeedsUpdate(fetched, StoredDate(f, env))
    requires env.driverOk && env.copyOk && env.connectOk && env.renameOk
    requires Built(f, changes, src).Some?
    ensures var old_ := f.final.value;
      var g := Cycle(f, fetched, changes, src, env);
      g.final.Some? && Consistent(g.final.value) &&
      FindCategory(old_.categories, changes.value.transportType).Some? &&
      var categoryId := FindCategory(old_.categories, changes.value.transportType).value.id;
      (forall b :: b in old_.buses && !Patch.Targeted(b, categoryId, changes.value.routes) ==>
         b in g.final.value.buses && RouteUnchanged(old_, g.final.value, b.id)) &&
      (forall b :: b in g.final.value.buses ==>
         b in old_.buses || (b.id > old_.lastBus && Patch.Targeted(b, categoryId, changes.value.routes)))
    ensures var old_ := f.final.value;
      var g := Cycle(f, fetched, changes, src, env);
      UniqueRoutes(old_) && DistinctNumbers(changes.value.routes) ==>
        g.final.Some? && UniqueRoutes(g.final.value) &&
        var categoryId := FindCategory(old_.categories, changes.value.transportType).value.id;
        forall b :: b in old_.buses && Patch.Targeted(b, categoryId, changes.value.routes) ==>
          b.id !in BusIds(g.final.value.buses)
  {
    var s := f.final.value;
    var c := changes.value;
    var r := Built(f, changes, src).value;
    assert Patch.Update(s, c.transportType, c.routes, src) == Patch.Patched(r);
    BuiltInstalled(f, changes, src, env);
    assert Cycle(f, fetched, changes, src, env).final == Some(r);
    Patch.UpdateFrame(s, c.transportType, c.routes, src);
    if UniqueRoutes(s) && DistinctNumbers(c.routes) {
      Patch.UpdateEffect(s, c.transportType, c.routes, src);
    }
  }
}

=== FILE: steps.dfy ===
/** The insert loops that the full build and the incremental patch share, as functions on a
    database value, and what each of them adds and leaves alone. */
module Steps {
  import opened Wrappers
  import opened Numbers
  import opened Tables
  import opened TableLemmas

  /** The lookup of a stop's timetable by its link (Parse.getBusTime). */
  type TimeSource = string -> Result<seq<TimeTransport>>

  /** The category names the program looks up by literal. */
  const BUS_CATEGORY: string := "Автобус"
  const TROLLEYBUS_CATEGORY: string := "Троллейбус"

  /** What the scraper (class Parse) answers during one cycle: each listing, or the exception its
      fetch threw. The site is taken not to change while a cycle runs, so calling the same listing
      twice gives the same answer. */
  datatype Source = Source(
    transportNames: Result<seq<string>>,  // Parse.transportName
    busNumbers: Result<seq<string>>,      // Parse.busNumber
    tralNumbers: Result<seq<string>>,     // Parse.tralNumber
    busRoutes: Result<seq<Route>>,        // Parse.getBusRoutes
    tralRoutes: Result<seq<Route>>,       // Parse.getTralRoutes
    busTime: TimeSource)                  // Parse.getBusTime

  /** No two scraped or listed route numbers parse to the same value. */
  ghost predicate DistinctNumbers(nums: seq<string>) {
    forall i, j :: 0 <= i < j < |nums| && ToInt(nums[i]).Some? ==> ToInt(nums[i]) != ToInt(nums[j])
  }

  /** times.forEach { INSERT INTO BusTime ... } for one station: one time row per line, and only
      the time table and its counter change. */
  function InsertTimes(s: Snapshot, ts: seq<TimeTransport>, stationId: int): (r: Snapshot)
    ensures |r.times| == |s.times| + |ts|
    ensures r == s.(times := r.times, lastTime := s.lastTime + |ts|)
    decreases |ts|
  {
    if ts == [] then s else InsertTimes(InsertTime(s, ts[0], stationId), ts[1..], stationId)
  }

  /** For each given station in turn: fetch its timetable by its link, then insert every line of it.
      The first fetch that throws ends the loop. */
  function InsertTimesFor(s: Snapshot, sts: seq<Station>, fetch: TimeSource): (r: Result<Snapshot>)
    ensures r.Ok? <==> forall i :: 0 <= i < |sts| ==> fetch(sts[i].link).Ok?
    decreases |sts|
  {
    if sts == [] then Ok(s)
    else
      var ts :- fetch(sts[0].link);
      assert forall i :: 0 < i < |sts| ==> sts[1..][i - 1] == sts[i];
      InsertTimesFor(InsertTimes(s, ts, sts[0].id), sts[1..], fetch)
  }

  /** routes.forEach { INSERT INTO Station ... } under one route id: one station per scraped stop,
      and only the station table and its counter change. */
  function InsertStations(s: Snapshot, routes: seq<Route>, busId: int): (r: Snapshot)
    ensures |r.stations| == |s.stations| + |routes|
    ensures r == s.(stations := r.stations, lastStation := s.lastStation + |routes|)
    decreases |routes|
  {
    if routes == [] then s else InsertStations(InsertStation(s, routes[0], busId), routes[1..], busId)
  }

  // ---------------------------------------------------------------- helpers on views

  lemma TimesViewConcat(a: seq<BusTime>, b: seq<BusTime>)
    ensures TimesView(a + b) == TimesView(a) + TimesView(b)
  {
    assert forall i :: 0 <= i < |a + b| ==> TimesView(a + b)[i] == (TimesView(a) + TimesView(b))[i];
  }

  lemma StopsOfConcat(a: seq<Station>, b: seq<Station>)
    ensures StopsOf(a + b) == StopsOf(a) + StopsOf(b)
  {
    assert forall i :: 0 <= i < |a + b| ==> StopsOf(a + b)[i] == (StopsOf(a) + StopsOf(b))[i];
  }

  lemma RouteStopsConcat(a: seq<Route>, b: seq<Route>)
    ensures RouteStops(a + b) == RouteStops(a) + RouteStops(b)
  {
    assert forall i :: 0 <= i < |a + b| ==> RouteStops(a + b)[i] == (RouteStops(a) + RouteStops(b))[i];
  }

  /** A route id above the counter has no stations yet. */
  lemma FreshBusHasNoStations(s: Snapshot, busId: int)
    requires Consistent(s) && busId > s.lastBus
    ensures StationsOf(s.stations, busId) == []
  {
    StationsOfNone(s.stations, busId);
  }

  /** A station id above the counter has no time rows yet. */
  lemma FreshStationHasNoTimes(s: Snapshot, stationId: int)
    requires Consistent(s) && stationId > s.lastStation
    ensures TimesOf(s.times, stationId) == []
  {
    TimesOfNone(s.times, stationId);
  }

  // ---------------------------------------------------------------- effects

  /** Inserting a timetable for one station appends exactly its lines, in order, to that station's
      time rows. */
  lemma {:induction false} InsertTimesAppends(s: Snapshot, ts: seq<TimeTransport>, stationId: int)
    ensures TimesView(TimesOf(InsertTimes(s, ts, stationId).times, stationId))
         == TimesView(TimesOf(s.times, stationId)) + ts
    decreases |ts|
  {
    if ts != [] {
      var s1 := InsertTime(s, ts[0], stationId);
      var row := BusTime(s.lastTime + 1, ts[0].hour, ts[0].min, ts[0].day, stationId);
      assert s1.times == s.times + [row];
      InsertTimesAppends(s1, ts[1..], stationId);
      TimesOfAppend(s.times, row, stationId);
      TimesViewConcat(TimesOf(s.times, stationId), [row]);
      assert TimesView([row]) == [ts[0]];
      assert ts == [ts[0]] + ts[1..];
    }
  }

  /** Inserting a timetable for one station leaves every other station's time rows alone. */
  lemma {:induction false} InsertTimesOthers(s: Snapshot, ts: seq<TimeTransport>, stationId: int, other: int)
    requires other != stationId
    ensures TimesOf(InsertTimes(s, ts, stationId).times, other) == TimesOf(s.times, other)
    decreases |ts|
  {
    if ts != [] {
      var s1 := InsertTime(s, ts[0], stationId);
      var row := BusTime(s.lastTime + 1, ts[0].hour, ts[0].min, ts[0].day, stationId);
      assert s1.times == s.times + [row];
      InsertTimesOthers(s1, ts[1..], stationId, other);
      TimesOfAppend(s.times, row, other);
    }
  }

  /** Inserting a timetable for a live station keeps the tables consistent. */
  lemma {:induction false} InsertTimesConsistent(s: Snapshot, ts: seq<TimeTransport>, stationId: int)
    requires Consistent(s) && stationId in StationIds(s.stations)
    ensures Consistent(InsertTimes(s, ts, stationId))
    decreases |ts|
  {
    if ts != [] {
      InsertTimeConsistent(s, ts[0], stationId);
      InsertTimesConsistent(InsertTime(s, ts[0], stationId), ts[1..], stationId);
    }
  }

  /** Fetching timetables only touches the time table and its counter. */
  lemma {:induction false} InsertTimesForFrame(s: Snapshot, sts: seq<Station>, fetch: TimeSource)
    requires InsertTimesFor(s, sts, fetch).Ok?
    ensures var r := InsertTimesFor(s, sts, fetch).value;
      r == s.(times := r.times, lastTime := r.lastTime)
    decreases |sts|
  {
    if sts != [] {
      var s1 := InsertTimes(s, fetch(sts[0].link).value, sts[0].id);
      InsertTimesForFrame(s1, sts[1..], fetch);
    }
  }

  /** When every fetch succeeds, each listed station (ids ascending, so each listed once) gets exactly
      the lines fetched for its link appended to its time rows; every other station keeps its time
      rows, and the other tables do not change. */
  lemma {:induction false} InsertTimesForEffect(s: Snapshot, sts: seq<Station>, fetch: TimeSource)
    requires InsertTimesFor(s, sts, fetch).Ok?
    requires StationsAscending(sts)
    ensures var r := InsertTimesFor(s, sts, fetch).value;
      r == s.(times := r.times, lastTime := r.lastTime) &&
      (forall st :: st in sts ==>
         fetch(st.link).Ok? &&
         TimesView(TimesOf(r.times, st.id)) == TimesView(TimesOf(s.times, st.id)) + fetch(st.link).value) &&
      (forall y :: y !in StationIds(sts) ==> TimesOf(r.times, y) == TimesOf(s.times, y)) &&
      (Consistent(s) && (forall st :: st in sts ==> st in s.stations) ==> Consistent(r))
    decreases |sts|
  {
    if sts != [] {
      var st0 := sts[0];
      var ts := fetch(st0.link).value;
      var s1 := InsertTimes(s, ts, st0.id);
      var r := InsertTimesFor(s, sts, fetch).value;
      assert r == InsertTimesFor(s1, sts[1..], fetch).value;
      InsertTimesAppends(s, ts, st0.id);
      StationsHead(sts);
      InsertTimesForEffect(s1, sts[1..], fetch);
      assert st0.id !in StationIds(sts[1..]);
      forall st | st in sts ensures fetch(st.link).Ok? &&
        TimesView(TimesOf(r.times, st.id)) == TimesView(TimesOf(s.times, st.id)) + fetch(st.link).value
      {
        if st != st0 {
          assert st in sts[1..];
          InsertTimesOthers(s, ts, st0.id, st.id);
        }
      }
      forall y | y !in StationIds(sts) ensures TimesOf(r.times, y) == TimesOf(s.times, y) {
        assert y != st0.id;
        InsertTimesOthers(s, ts, st0.id, y);
      }
      if Consistent(s) && (forall st :: st in sts ==> st in s.stations) {
        assert st0 in sts;
        InsertTimesConsistent(s, ts, st0.id);
      }
    }
  }

  /** Inserting scraped stops keeps the old stations, and the new rows are exactly rows of the given
      route with ids above the old counter. */
  lemma {:induction false} InsertStationsFrame(s: Snapshot, routes: seq<Route>, busId: int)
    ensures forall st :: st in s.stations ==> st in InsertStations(s, routes, busId).stations
    ensures forall st :: st in InsertStations(s, routes, busId).stations ==>
      st in s.stations || (st.busId == busId && s.lastStation < st.id <= s.lastStation + |routes|)
    decreases |routes|
  {
    if routes != [] {
      var s1 := InsertStation(s, routes[0], busId);
      InsertStationsFrame(s1, routes[1..], busId);
    }
  }

  /** Inserting scraped stops under one route appends them, in scraped order, to that route's
      stations. */
  lemma {:induction false} InsertStationsAppends(s: Snapshot, routes: seq<Route>, busId: int)
    ensures StopsOf(StationsOf(InsertStations(s, routes, busId).stations, busId))
         == StopsOf(StationsOf(s.stations, busId)) + RouteStops(routes)
    decreases |routes|
  {
    if routes != [] {
      var s1 := InsertStation(s, routes[0], busId);
      var row := Station(s.lastStation + 1, routes[0].station, routes[0].path, routes[0].link, busId);
      var before := StationsOf(s.stations, busId);
      assert s1.stations == s.stations + [row];
      InsertStationsAppends(s1, routes[1..], busId);
      StationsOfAppend(s.stations, row, busId);
      assert StationsOf(s1.stations, busId) == before + [row];
      StopsOfConcat(before, [row]);
      assert StopsOf([row]) == RouteStops([routes[0]]);
      RouteStopsConcat([routes[0]], routes[1..]);
      assert routes == [routes[0]] + routes[1..];
      ConcatAssoc(StopsOf(before), RouteStops([routes[0]]), RouteStops(routes[1..]));
    }
  }

  /** Inserting scraped stops under one route leaves every other route's stations alone. */
  lemma {:induction false} InsertStationsOthers(s: Snapshot, routes: seq<Route>, busId: int, other: int)
    requires other != busId
    ensures StationsOf(InsertStations(s, routes, busId).stations, other) == StationsOf(s.stations, other)
    decreases |routes|
  {
    if routes != [] {
      var s1 := InsertStation(s, routes[0], busId);
      var row := Station(s.lastStation + 1, routes[0].station, routes[0].path, routes[0].link, busId);
      assert s1.stations == s.stations + [row];
      InsertStationsOthers(s1, routes[1..], busId, other);
      StationsOfAppend(s.stations, row, other);
    }
  }

  lemma ConcatAssoc<T>(a: seq<T>, b: seq<T>, c: seq<T>)
    ensures a + b + c == a + (b + c)
  {
  }

  /** Inserting stops under a live route keeps the tables consistent. */
  lemma {:induction false} InsertStationsConsistent(s: Snapshot, routes: seq<Route>, busId: int)
    requires Consistent(s) && busId in BusIds(s.buses)
    ensures Consistent(InsertStations(s, routes, busId))
    decreases |routes|
  {
    if routes != [] {
      InsertStationConsistent(s, routes[0], busId);
      InsertStationsConsistent(InsertStation(s, routes[0], busId), routes[1..], busId);
    }
  }
}

=== FILE: store.dfy ===
/** A JDBC connection to one SQLite file: the four tables as sequences of rows that the INSERT and
    DELETE statements reassign, and the AUTOINCREMENT counters. */
module Store {
  import Tables

  class Database {
    var categories: seq<Tables.Category>
    var buses: seq<Tables.Bus>
    var stations: seq<Tables.Station>
    var times: seq<Tables.BusTime>
    var lastCategory: int
    var lastBus: int
    var lastStation: int
    var lastTime: int

    /** The file's content as a value. */
    function Contents(): Tables.Snapshot
      reads this
    {
      Tables.Snapshot(categories, buses, stations, times, lastCategory, lastBus, lastStation, lastTime)
    }

    /** A connection to a new, empty file after the four CREATE TABLE statements. */
    constructor Create()
      ensures Contents() == Tables.EMPTY
    {
      categories, buses, stations, times := [], [], [], [];
      lastCategory, lastBus, lastStation, lastTime := 0, 0, 0, 0;
    }

    /** A connection to an existing file. */
    constructor Open(s: Tables.Snapshot)
      ensures Contents() == s
    {
      categories, buses, stations, times := s.categories, s.buses, s.stations, s.times;
      lastCategory, lastBus, lastStation, lastTime := s.lastCategory, s.lastBus, s.lastStation, s.lastTime;
    }

    /** INSERT INTO Category (nameCategory) VALUES (?) */
    method InsertCategory(name: string)
      modifies this
      ensures Contents() == Tables.InsertCategory(old(Contents()), name)
    {
      lastCategory := lastCategory + 1;
      categories := categories + [Tables.Category(lastCategory, name)];
    }

    /** INSERT INTO Bus (nameCategory_id, numBus) VALUES (?, ?) */
    method InsertBus(categoryId: int, num: int)
      modifies this
      ensures Contents() == Tables.InsertBus(old(Contents()), categoryId, num)
    {
      lastBus := lastBus + 1;
      buses := buses + [Tables.Bus(lastBus, categoryId, num)];
    }

    /** INSERT INTO Station (station, path, link, Bus_id) VALUES (?, ?, ?, ?) */
    method InsertStation(r: Tables.Route, busId: int)
      modifies this
      ensures Contents() == Tables.InsertStation(old(Contents()), r, busId)
    {
      lastStation := lastStation + 1;
      stations := stations + [Tables.Station(lastStation, r.station, r.path, r.link, busId)];
    }

    /** INSERT INTO BusTime (hour, time, day, Station_id) VALUES (?, ?, ?, ?) */
    method InsertTime(t: Tables.TimeTransport, stationId: int)
      modifies this
      ensures Contents() == Tables.InsertTime(old(Contents()), t, stationId)
    {
      lastTime := lastTime + 1;
      times := times + [Tables.BusTime(lastTime, t.hour, t.min, t.day, stationId)];
    }

    /** The three DELETE statements for one route: its time rows through its stations, its
        stations, its Bus row. */
    method DeleteBus(busId: int)
      modifies this
      ensures Contents() == Tables.DeleteBus(old(Contents()), busId)
    {
      times := Tables.WithoutTimesOf(times, Tables.StationIds(Tables.StationsOf(stations, busId)));
      stations := Tables.WithoutStationsOf(stations, busId);
      buses := Tables.WithoutBus(buses, busId);
    }
  }
}

=== FILE: tables.dfy ===
/** The four tables of the schedule database (Category, Bus, Station, BusTime), the records scraped
    from the remote site that fill them, and the SQL statements of the synchronisation as functions
    on a database value. Rows are kept in rowid order; every SELECT of the program has no ORDER BY,
    and is modelled as a scan in that order. */
module Tables {
  import opened Wrappers

  /** One stop of one path variant of a route, as scraped (data class Route). */
  datatype Route = Route(number: string, path: string, station: string, link: string)

  /** One line of a stop's timetable, as scraped (data class TimeTransport). */
  datatype TimeTransport = TimeTransport(day: string, hour: string, min: string)

  datatype Category = Category(id: int, name: string)
  datatype Bus = Bus(id: int, categoryId: int, num: int)
  datatype Station = Station(id: int, station: string, path: string, link: string, busId: int)
  datatype BusTime = BusTime(id: int, hour: string, min: string, day: string, stationId: int)

  /** The content of one database file: the four tables and, per table, the largest id ever
      handed out by AUTOINCREMENT (SQLite keeps it in sqlite_sequence, so it survives deletes
      and file copies). */
  datatype Snapshot = Snapshot(
    categories: seq<Category>, buses: seq<Bus>, stations: seq<Station>, times: seq<BusTime>,
    lastCategory: int, lastBus: int, lastStation: int, lastTime: int)

  /** A new file after the four CREATE TABLE statements. */
  const EMPTY: Snapshot := Snapshot([], [], [], [], 0, 0, 0, 0)

  // ---------------------------------------------------------------- INSERT statements

  /** INSERT INTO Category: one row with the next AUTOINCREMENT id goes to the end of the table;
      the other tables and counters are untouched. */
  function InsertCategory(s: Snapshot, name: string): (r: Snapshot)
    ensures r.categories == s.categories + [Category(r.lastCategory, name)]
    ensures r.lastCategory == s.lastCategory + 1
    ensures r == s.(categories := r.categories, lastCategory := r.lastCategory)
  {
    var id := s.lastCategory + 1;
    s.(categories := s.categories + [Category(id, name)], lastCategory := id)
  }

  /** INSERT INTO Bus, likewise. */
  function InsertBus(s: Snapshot, categoryId: int, num: int): (r: Snapshot)
    ensures r.buses == s.buses + [Bus(r.lastBus, categoryId, num)]
    ensures r.lastBus == s.lastBus + 1
    ensures r == s.(buses := r.buses, lastBus := r.lastBus)
  {
    var id := s.lastBus + 1;
    s.(buses := s.buses + [Bus(id, categoryId, num)], lastBus := id)
  }

  /** INSERT INTO Station, from one scraped stop, likewise. */
  function InsertStation(s: Snapshot, r: Route, busId: int): (t: Snapshot)
    ensures t.stations == s.stations + [Station(t.lastStation, r.station, r.path, r.link, busId)]
    ensures t.lastStation == s.lastStation + 1
    ensures t == s.(stations := t.stations, lastStation := t.lastStation)
  {
    var id := s.lastStation + 1;
    s.(stations := s.stations + [Station(id, r.station, r.path, r.link, busId)], lastStation := id)
  }

  /** INSERT INTO BusTime, from one scraped timetable line, likewise. */
  function InsertTime(s: Snapshot, t: TimeTransport, stationId: int): (r: Snapshot)
    ensures r.times == s.times + [BusTime(r.lastTime, t.hour, t.min, t.day, stationId)]
    ensures r.lastTime == s.lastTime + 1
    ensures r == s.(times := r.times, lastTime := r.lastTime)
  {
    var id := s.lastTime + 1;
    s.(times := s.times + [BusTime(id, t.hour, t.min, t.day, stationId)], lastTime := id)
  }

  // ---------------------------------------------------------------- SELECT statements

  /** SELECT id FROM Category WHERE nameCategory = ?, first row. */
  function FindCategory(cats: seq<Category>, name: string): (r: Option<Category>)
    ensures r.Some? ==> r.value in cats && r.value.name == name
    ensures r.Some? ==> (exists i :: 0 <= i < |cats| && cats[i] == r.value &&
                                 forall j :: 0 <= j < i ==> cats[j].name != name)
    ensures r.None? ==> forall c :: c in cats ==> c.name != name
  {
    if cats == [] then None
    else if cats[0].name == name then Some(cats[0])
    else FindCategory(cats[1..], name)
  }

  /** SELECT id FROM Bus WHERE numBus = ? AND nameCategory_id = ?, first row. */
  function FindBus(buses: seq<Bus>, num: int, categoryId: int): (r: Option<Bus>)
    ensures r.Some? ==> r.value in buses && r.value.num == num && r.value.categoryId == categoryId
    ensures r.Some? ==> (exists i :: 0 <= i < |buses| && buses[i] == r.value &&
                                 forall j :: 0 <= j < i ==> !(buses[j].num == num && buses[j].categoryId == categoryId))
    ensures r.None? ==> forall b :: b in buses ==> !(b.num == num && b.categoryId == categoryId)
  {
    if buses == [] then None
    else if buses[0].num == num && buses[0].categoryId == categoryId then Some(buses[0])
    else FindBus(buses[1..], num, categoryId)
  }

  /** SELECT ... FROM Station WHERE Bus_id = ?, in table order. */
  function StationsOf(sts: seq<Station>, busId: int): (r: seq<Station>)
    ensures forall st :: st in r <==> st in sts && st.busId == busId
  {
    if sts == [] then []
    else (if sts[0].busId == busId then [sts[0]] else []) + StationsOf(sts[1..], busId)
  }

  /** The BusTime rows of one station, in table order. */
  function TimesOf(ts: seq<BusTime>, stationId: int): (r: seq<BusTime>)
    ensures forall t :: t in r <==> t in ts && t.stationId == stationId
  {
    if ts == [] then []
    else (if ts[0].stationId == stationId then [ts[0]] else []) + TimesOf(ts[1..], stationId)
  }

  function CategoryIds(cats: seq<Category>): set<int> { set c | c in cats :: c.id }
  function BusIds(buses: seq<Bus>): set<int> { set b | b in buses :: b.id }
  function StationIds(sts: seq<Station>): set<int> { set st | st in sts :: st.id }

  // ---------------------------------------------------------------- DELETE statements

  /** DELETE FROM BusTime WHERE Station_id IN (...). */
  function WithoutTimesOf(ts: seq<BusTime>, stationIds: set<int>): (r: seq<BusTime>)
    ensures forall t :: t in r <==> t in ts && t.stationId !in stationIds
  {
    if ts == [] then []
    else (if ts[0].stationId in stationIds then [] else [ts[0]]) + WithoutTimesOf(ts[1..], stationIds)
  }

  /** DELETE FROM Station WHERE Bus_id = ?. */
  function WithoutStationsOf(sts: seq<Station>, busId: int): (r: seq<Station>)
    ensures forall st :: st in r <==> st in sts && st.busId != busId
  {
    if sts == [] then []
    else (if sts[0].busId == busId then [] else [sts[0]]) + WithoutStationsOf(sts[1..], busId)
  }

  /** DELETE FROM Bus WHERE id = ?. */
  function WithoutBus(buses: seq<Bus>, busId: int): (r: seq<Bus>)
    ensures forall b :: b in r <==> b in buses && b.id != busId
  {
    if buses == [] then []
    else (if buses[0].id == busId then [] else [buses[0]]) + WithoutBus(buses[1..], busId)
  }

  /** The three DELETE statements run for one route, in the program's order: its time rows
      (through its stations), its stations, the route itself. */
  function DeleteBus(s: Snapshot, busId: int): (r: Snapshot)
    ensures forall b :: b in r.buses <==> b in s.buses && b.id != busId
    ensures forall st :: st in r.stations <==> st in s.stations && st.busId != busId
    ensures forall t :: t in r.times <==>
      t in s.times && forall st :: st in s.stations && st.busId == busId ==> st.id != t.stationId
    ensures r == s.(buses := r.buses, stations := r.stations, times := r.times)
  {
    var times := WithoutTimesOf(s.times, StationIds(StationsOf(s.stations, busId)));
    var stations := WithoutStationsOf(s.stations, busId);
    s.(times := times, stations := stations, buses := WithoutBus(s.buses, busId))
  }

  // ---------------------------------------------------------------- views

  /** What a Station row keeps of the scraped stop it was inserted from. */
  datatype Stop = Stop(station: string, path: string, link: string)

  function StopsOf(sts: seq<Station>): (r: seq<Stop>)
    ensures |r| == |sts|
  {
    seq(|sts|, i requires 0 <= i < |sts| => Stop(sts[i].station, sts[i].path, sts[i].link))
  }

  /** The stops of scraped records, to compare with StopsOf of stored rows: a stored Station and
      the scraped Route it came from are different types, so each has its own projection. */
  function RouteStops(routes: seq<Route>): (r: seq<Stop>)
    ensures |r| == |routes|
  {
    seq(|routes|, i requires 0 <= i < |routes| => Stop(routes[i].station, routes[i].path, routes[i].link))
  }

  /** The scraped records stored time rows were inserted from. */
  function TimesView(rows: seq<BusTime>): (r: seq<TimeTransport>)
    ensures |r| == |rows|
  {
    seq(|rows|, i requires 0 <= i < |rows| => TimeTransport(rows[i].day, rows[i].hour, rows[i].min))
  }

  /** routes.filter { it.number == routeNumber } */
  function WithNumber(routes: seq<Route>, number: string): (r: seq<Route>)
    ensures forall x :: x in r <==> x in routes && x.number == number
  {
    if routes == [] then []
    else (if routes[0].number == number then [routes[0]] else []) + WithNumber(routes[1..], number)
  }

  /** The stations of a route and the time rows of each are what they were. */
  ghost predicate RouteUnchanged(s: Snapshot, t: Snapshot, busId: int) {
    StationsOf(t.stations, busId) == StationsOf(s.stations, busId) &&
    forall st :: st in StationsOf(s.stations, busId) ==> TimesOf(t.times, st.id) == TimesOf(s.times, st.id)
  }

  // ---------------------------------------------------------------- integrity

  ghost predicate CategoriesAscending(cs: seq<Category>) {
    forall i, j :: 0 <= i < j < |cs| ==> cs[i].id < cs[j].id
  }
  ghost predicate BusesAscending(bs: seq<Bus>) {
    forall i, j :: 0 <= i < j < |bs| ==> bs[i].id < bs[j].id
  }
  ghost predicate StationsAscending(sts: seq<Station>) {
    forall i, j :: 0 <= i < j < |sts| ==> sts[i].id < sts[j].id
  }
  ghost predicate TimesAscending(ts: seq<BusTime>) {
    forall i, j :: 0 <= i < j < |ts| ==> ts[i].id < ts[j].id
  }

  /** What the program's tables keep between statements: ids ascend in rowid order and never
      exceed the AUTOINCREMENT counter, and every foreign key names a live row (the program
      deletes children explicitly; SQLite's ON DELETE CASCADE is not switched on). */
  ghost predicate Consistent(s: Snapshot) {
    CategoriesAscending(s.categories) && BusesAscending(s.buses) &&
    StationsAscending(s.stations) && TimesAscending(s.times) &&
    (forall c :: c in s.categories ==> c.id <= s.lastCategory) &&
    (forall b :: b in s.buses ==> b.id <= s.lastBus) &&
    (forall st :: st in s.stations ==> st.id <= s.lastStation) &&
    (forall t :: t in s.times ==> t.id <= s.lastTime) &&
    (forall b :: b in s.buses ==> b.categoryId in CategoryIds(s.categories)) &&
    (forall st :: st in s.stations ==> st.busId in BusIds(s.buses)) &&
    (forall t :: t in s.times ==> t.stationId in StationIds(s.stations))
  }

  /** No two routes share a (category, number) pair. */
  ghost predicate UniqueRoutes(s: Snapshot) {
    forall a, b :: a in s.buses && b in s.buses && a.categoryId == b.categoryId && a.num == b.num ==> a == b
  }
}

=== FILE: tables_lemmas.dfy ===
/** What the INSERT and DELETE statements of Tables change, what they leave alone, and that they
    keep the tables consistent. */
module TableLemmas {
  import opened Tables

  // ---------------------------------------------------------------- order of ids

  lemma BusesHead(bs: seq<Bus>)
    requires BusesAscending(bs) && |bs| > 0
    ensures BusesAscending(bs[1..])
    ensures forall b :: b in bs[1..] ==> bs[0].id < b.id
  {
    forall b | b in bs[1..] ensures bs[0].id < b.id {
      var k :| 0 <= k < |bs| - 1 && bs[1..][k] == b;
      assert bs[k + 1] == b;
    }
  }

  lemma StationsHead(sts: seq<Station>)
    requires StationsAscending(sts) && |sts| > 0
    ensures StationsAscending(sts[1..])
    ensures forall st :: st in sts[1..] ==> sts[0].id < st.id
  {
    forall st | st in sts[1..] ensures sts[0].id < st.id {
      var k :| 0 <= k < |sts| - 1 && sts[1..][k] == st;
      assert sts[k + 1] == st;
    }
  }

  lemma TimesHead(ts: seq<BusTime>)
    requires TimesAscending(ts) && |ts| > 0
    ensures TimesAscending(ts[1..])
    ensures forall t :: t in ts[1..] ==> ts[0].id < t.id
  {
    forall t | t in ts[1..] ensures ts[0].id < t.id {
      var k :| 0 <= k < |ts| - 1 && ts[1..][k] == t;
      assert ts[k + 1] == t;
    }
  }

  /** Ascending ids make the station id a key: one row per id. */
  lemma StationIdIsKey(sts: seq<Station>)
    requires StationsAscending(sts)
    ensures forall a, b :: a in sts && b in sts && a.id == b.id ==> a == b
  {
    forall a, b | a in sts && b in sts && a.id == b.id ensures a == b {
      var i :| 0 <= i < |sts| && sts[i] == a;
      var j :| 0 <= j < |sts| && sts[j] == b;
      assert !(i < j) && !(j < i);
    }
  }

  /** Ascending ids make the category id a key: one row per id. */
  lemma CategoryIdIsKey(cs: seq<Category>)
    requires CategoriesAscending(cs)
    ensures forall a, b :: a in cs && b in cs && a.id == b.id ==> a == b
  {
    forall a, b | a in cs && b in cs && a.id == b.id ensures a == b {
      var i :| 0 <= i < |cs| && cs[i] == a;
      var j :| 0 <= j < |cs| && cs[j] == b;
      assert !(i < j) && !(j < i);
    }
  }

  /** Ascending ids make the bus id a key: one row per id. */
  lemma BusIdIsKey(bs: seq<Bus>)
    requires BusesAscending(bs)
    ensures forall a, b :: a in bs && b in bs && a.id == b.id ==> a == b
  {
    forall a, b | a in bs && b in bs && a.id == b.id ensures a == b {
      var i :| 0 <= i < |bs| && bs[i] == a;
      var j :| 0 <= j < |bs| && bs[j] == b;
      assert !(i < j) && !(j < i);
    }
  }

  lemma {:induction false} WithoutBusAscending(bs: seq<Bus>, busId: int)
    requires BusesAscending(bs)
    ensures BusesAscending(WithoutBus(bs, busId))
  {
    if bs != [] {
      BusesHead(bs);
      WithoutBusAscending(bs[1..], busId);
    }
  }

  lemma {:induction false} WithoutStationsAscending(sts: seq<Station>, busId: int)
    requires StationsAscending(sts)
    ensures StationsAscending(WithoutStationsOf(sts, busId))
  {
    if sts != [] {
      StationsHead(sts);
      WithoutStationsAscending(sts[1..], busId);
    }
  }

  lemma {:induction false} StationsOfAscending(sts: seq<Station>, busId: int)
    requires StationsAscending(sts)
    ensures StationsAscending(StationsOf(sts, busId))
  {
    if sts != [] {
      StationsHead(sts);
      StationsOfAscending(sts[1..], busId);
    }
  }

  lemma {:induction false} WithoutTimesAscending(ts: seq<BusTime>, stationIds: set<int>)
    requires TimesAscending(ts)
    ensures TimesAscending(WithoutTimesOf(ts, stationIds))
  {
    if ts != [] {
      TimesHead(ts);
      WithoutTimesAscending(ts[1..], stationIds);
    }
  }

  // ---------------------------------------------------------------- appending a row

  /** An inserted station joins the end of its own route's station list and no other. */
  lemma {:induction false} StationsOfAppend(sts: seq<Station>, st: Station, busId: int)
    ensures StationsOf(sts + [st], busId) == StationsOf(sts, busId) + (if st.busId == busId then [st] else [])
  {
    if sts != [] {
      assert (sts + [st])[1..] == sts[1..] + [st];
      StationsOfAppend(sts[1..], st, busId);
    } else {
      assert [st][1..] == [];
    }
  }

  /** An inserted time row joins the end of its own station's time list and no other. */
  lemma {:induction false} TimesOfAppend(ts: seq<BusTime>, t: BusTime, stationId: int)
    ensures TimesOf(ts + [t], stationId) == TimesOf(ts, stationId) + (if t.stationId == stationId then [t] else [])
  {
    if ts != [] {
      assert (ts + [t])[1..] == ts[1..] + [t];
      TimesOfAppend(ts[1..], t, stationId);
    } else {
      assert [t][1..] == [];
    }
  }

  lemma {:induction false} StationsOfNone(sts: seq<Station>, busId: int)
    requires forall st :: st in sts ==> st.busId != busId
    ensures StationsOf(sts, busId) == []
  {
    if sts != [] {
      StationsOfNone(sts[1..], busId);
    }
  }

  lemma {:induction false} TimesOfNone(ts: seq<BusTime>, stationId: int)
    requires forall t :: t in ts ==> t.stationId != stationId
    ensures TimesOf(ts, stationId) == []
  {
    if ts != [] {
      TimesOfNone(ts[1..], stationId);
    }
  }

  lemma InsertCategoryConsistent(s: Snapshot, name: string)
    requires Consistent(s)
    ensures Consistent(InsertCategory(s, name))
    ensures CategoryIds(InsertCategory(s, name).categories) == CategoryIds(s.categories) + {s.lastCategory + 1}
  {
    var r := InsertCategory(s, name);
    var row := Category(s.lastCategory + 1, name);
    assert r.categories == s.categories + [row];
    assert forall c :: c in r.categories <==> c in s.categories || c == row;
    assert CategoriesAscending(r.categories) by {
      forall i, j | 0 <= i < j < |r.categories| ensures r.categories[i].id < r.categories[j].id {
        assert r.categories[i] in s.categories;
      }
    }
    assert CategoryIds(r.categories) == CategoryIds(s.categories) + {row.id};
  }

  lemma InsertBusConsistent(s: Snapshot, categoryId: int, num: int)
    requires Consistent(s) && categoryId in CategoryIds(s.categories)
    ensures Consistent(InsertBus(s, categoryId, num))
    ensures BusIds(InsertBus(s, categoryId, num).buses) == BusIds(s.buses) + {s.lastBus + 1}
  {
    var r := InsertBus(s, categoryId, num);
    var row := Bus(s.lastBus + 1, categoryId, num);
    assert r.buses == s.buses + [row];
    assert forall b :: b in r.buses <==> b in s.buses || b == row;
    assert BusesAscending(r.buses) by {
      forall i, j | 0 <= i < j < |r.buses| ensures r.buses[i].id < r.buses[j].id {
        assert r.buses[i] in s.buses;
      }
    }
    assert BusIds(r.buses) == BusIds(s.buses) + {row.id};
  }

  lemma InsertStationConsistent(s: Snapshot, route: Route, busId: int)
    requires Consistent(s) && busId in BusIds(s.buses)
    ensures Consistent(InsertStation(s, route, busId))
    ensures StationIds(InsertStation(s, route, busId).stations) == StationIds(s.stations) + {s.lastStation + 1}
  {
    var r := InsertStation(s, route, busId);
    var row := Station(s.lastStation + 1, route.station, route.path, route.link, busId);
    assert r.stations == s.stations + [row];
    assert forall x :: x in r.stations <==> x in s.stations || x == row;
    assert StationsAscending(r.stations) by {
      forall i, j | 0 <= i < j < |r.stations| ensures r.stations[i].id < r.stations[j].id {
        assert r.stations[i] in s.stations;
      }
    }
    assert StationIds(r.stations) == StationIds(s.stations) + {row.id};
  }

  lemma InsertTimeConsistent(s: Snapshot, t: TimeTransport, stationId: int)
    requires Consistent(s) && stationId in StationIds(s.stations)
    ensures Consistent(InsertTime(s, t, stationId))
  {
    var r := InsertTime(s, t, stationId);
    var row := BusTime(s.lastTime + 1, t.hour, t.min, t.day, stationId);
    assert r.times == s.times + [row];
    assert forall x :: x in r.times <==> x in s.times || x == row;
    assert TimesAscending(r.times) by {
      forall i, j | 0 <= i < j < |r.times| ensures r.times[i].id < r.times[j].id {
        assert r.times[i] in s.times;
      }
    }
  }

  // ---------------------------------------------------------------- deleting a route

  lemma {:induction false} StationsOfWithout(sts: seq<Station>, busId: int, other: int)
    requires other != busId
    ensures StationsOf(WithoutStationsOf(sts, busId), other) == StationsOf(sts, other)
  {
    if sts != [] {
      StationsOfWithout(sts[1..], busId, other);
      var rest := WithoutStationsOf(sts[1..], busId);
      if sts[0].busId == busId {
        assert WithoutStationsOf(sts, busId) == rest;
      } else {
        assert WithoutStationsOf(sts, busId) == [sts[0]] + rest;
        assert ([sts[0]] + rest)[1..] == rest;
      }
    }
  }

  lemma {:induction false} TimesOfWithout(ts: seq<BusTime>, stationIds: set<int>, stationId: int)
    requires stationId !in stationIds
    ensures TimesOf(WithoutTimesOf(ts, stationIds), stationId) == TimesOf(ts, stationId)
  {
    if ts != [] {
      TimesOfWithout(ts[1..], stationIds, stationId);
      var rest := WithoutTimesOf(ts[1..], stationIds);
      if ts[0].stationId in stationIds {
        assert WithoutTimesOf(ts, stationIds) == rest;
      } else {
        assert WithoutTimesOf(ts, stationIds) == [ts[0]] + rest;
        assert ([ts[0]] + rest)[1..] == rest;
      }
    }
  }

  lemma {:induction false} StationsOfWithoutSelf(sts: seq<Station>, busId: int)
    ensures StationsOf(WithoutStationsOf(sts, busId), busId) == []
  {
    if sts != [] {
      StationsOfWithoutSelf(sts[1..], busId);
      var rest := WithoutStationsOf(sts[1..], busId);
      if sts[0].busId != busId {
        assert WithoutStationsOf(sts, busId) == [sts[0]] + rest;
        assert ([sts[0]] + rest)[1..] == rest;
      } else {
        assert WithoutStationsOf(sts, busId) == rest;
      }
    }
  }

  /** Deleting one route (its time rows, its stations, its Bus row) keeps the tables consistent
      and keeps every other route's Bus row. */
  lemma DeleteBusConsistent(s: Snapshot, busId: int)
    requires Consistent(s)
    ensures Consistent(DeleteBus(s, busId))
    ensures busId !in BusIds(DeleteBus(s, busId).buses)
    ensures forall b :: b in s.buses && b.id != busId ==> b in DeleteBus(s, busId).buses
  {
    var r := DeleteBus(s, busId);
    StationIdIsKey(s.stations);
    WithoutBusAscending(s.buses, busId);
    WithoutStationsAscending(s.stations, busId);
    WithoutTimesAscending(s.times, StationIds(StationsOf(s.stations, busId)));
    forall st | st in r.stations ensures st.busId in BusIds(r.buses) {
      var b :| b in s.buses && b.id == st.busId;
      assert b in r.buses;
    }
    forall t | t in r.times ensures t.stationId in StationIds(r.stations) {
      var st :| st in s.stations && st.id == t.stationId;
      assert st.busId != busId;
      assert st in r.stations;
    }
  }

  /** Deleting one route leaves no station of it behind and leaves every other route's
      stations and time rows as they were. */
  lemma DeleteBusFrame(s: Snapshot, busId: int)
    requires Consistent(s)
    ensures StationsOf(DeleteBus(s, busId).stations, busId) == []
    ensures forall other :: other != busId ==> RouteUnchanged(s, DeleteBus(s, busId), other)
  {
    var r := DeleteBus(s, busId);
    var gone := StationIds(StationsOf(s.stations, busId));
    StationsOfWithoutSelf(s.stations, busId);
    StationIdIsKey(s.stations);
    forall other | other != busId ensures RouteUnchanged(s, r, other) {
      StationsOfWithout(s.stations, busId, other);
      forall st | st in StationsOf(s.stations, other) ensures TimesOf(r.times, st.id) == TimesOf(s.times, st.id) {
        assert st.id !in gone;
        TimesOfWithout(s.times, gone, st.id);
      }
    }
  }
}

=== FILE: wrappers.dfy ===
/** Option and Result, standing for Kotlin's nullable values and thrown exceptions. */
module Wrappers {

  datatype Option<+T> = None | Some(value: T)

  /** Why a step of a synchronisation cycle threw. */
  datatype Failure =
    | ScrapeFailed   // a Jsoup fetch or parse of the remote site threw
    | BadNumber      // String.toInt threw NumberFormatException
    | EmptyResult    // ResultSet.getInt was called after rs.next() returned false

  /** A value, or the exception that took its place. */
  datatype Result<+T> = Ok(value: T) | Err(failure: Failure) {
    predicate IsFailure() { Err? }

    function PropagateFailure<U>(): Result<U>
      requires Err?
    {
      Err(failure)
    }

    function Extract(): T
      requires Ok?
    {
      value
    }
  }

  /** A statement sequence that either ran to its end or threw. */
  datatype Outcome = Pass | Fail(failure: Failure)
}

=== FILE: writer.dfy ===
/** The statement loops of performFullParse and parseAndSaveToDb as they run: methods on an open
    connection that issue one INSERT or DELETE at a time, each proved to leave the database the
    specifying function of Steps, Build or Patch computes, and to throw exactly when it says. */
module Writer {
  import opened Wrappers
  import opened Numbers
  import opened Tables
  import Steps
  import Build
  import Patch
  import Store

  /** A loop that ran to its end left the database the specification computes; one that threw,
      threw what the specification says. */
  predicate Agrees(r: Outcome, spec: Result<Snapshot>, now: Snapshot) {
    match r
    case Pass => spec == Ok(now)
    case Fail(f) => spec == Err(f)
  }

  /** times.forEach { INSERT INTO BusTime ... } */
  method InsertTimes(db: Store.Database, ts: seq<TimeTransport>, stationId: int)
    modifies db
    ensures db.Contents() == Steps.InsertTimes(old(db.Contents()), ts, stationId)
  {
    var i := 0;
    while i < |ts|
      invariant 0 <= i <= |ts|
      invariant Steps.InsertTimes(db.Contents(), ts[i..], stationId) == Steps.InsertTimes(old(db.Contents()), ts, stationId)
    {
      assert ts[i..][0] == ts[i] && ts[i..][1..] == ts[i + 1..];
      db.InsertTime(ts[i], stationId);
      i := i + 1;
    }
  }

  /** while (rs.next()) over the given stations: fetch the timetable by the link, insert it. */
  method InsertTimesFor(db: Store.Database, sts: seq<Station>, fetch: Steps.TimeSource) returns (r: Outcome)
    modifies db
    ensures Agrees(r, Steps.InsertTimesFor(old(db.Contents()), sts, fetch), db.Contents())
  {
    var i := 0;
    while i < |sts|
      invariant 0 <= i <= |sts|
      invariant Steps.InsertTimesFor(db.Contents(), sts[i..], fetch) == Steps.InsertTimesFor(old(db.Contents()), sts, fetch)
    {
      assert sts[i..][0] == sts[i] && sts[i..][1..] == sts[i + 1..];
      var times := fetch(sts[i].link);
      if times.Err? {
        return Fail(times.failure);
      }
      InsertTimes(db, times.value, sts[i].id);
      i := i + 1;
    }
    r := Pass;
  }

  /** routeData.forEach { INSERT INTO Station ... } */
  method InsertStations(db: Store.Database, routes: seq<Route>, busId: int)
    modifies db
    ensures db.Contents() == Steps.InsertStations(old(db.Contents()), routes, busId)
  {
    var i := 0;
    while i < |routes|
      invariant 0 <= i <= |routes|
      invariant Steps.InsertStations(db.Contents(), routes[i..], busId) == Steps.InsertStations(old(db.Contents()), routes, busId)
    {
      assert routes[i..][0] == routes[i] && routes[i..][1..] == routes[i + 1..];
      db.InsertStation(routes[i], busId);
      i := i + 1;
    }
  }

  // ---------------------------------------------------------------- performFullParse

  /** categories.forEach { INSERT INTO Category ... } */
  method InsertCategories(db: Store.Database, names: seq<string>)
    modifies db
    ensures db.Contents() == Build.InsertCategories(old(db.Contents()), names)
  {
    var i := 0;
    while i < |names|
      invariant 0 <= i <= |names|
      invariant Build.InsertCategories(db.Contents(), names[i..]) == Build.InsertCategories(old(db.Contents()), names)
    {
      assert names[i..][0] == names[i] && names[i..][1..] == names[i + 1..];
      db.InsertCategory(names[i]);
      i := i + 1;
    }
  }

  /** busNumbers.forEach (or tralNumbers.forEach) { INSERT INTO Bus ... num.toInt() ... } */
  method InsertBuses(db: Store.Database, categoryId: int, nums: seq<string>) returns (r: Outcome)
    modifies db
    ensures Agrees(r, Build.InsertBuses(old(db.Contents()), categoryId, nums), db.Contents())
  {
    var i := 0;
    while i < |nums|
      invariant 0 <= i <= |nums|
      invariant Build.InsertBuses(db.Contents(), categoryId, nums[i..]) == Build.InsertBuses(old(db.Contents()), categoryId, nums)
    {
      assert nums[i..][0] == nums[i] && nums[i..][1..] == nums[i + 1..];
      var n := ParseNumber(nums[i]);
      if n.Err? {
        return Fail(n.failure);
      }
      db.InsertBus(categoryId, n.value);
      i := i + 1;
    }
    r := Pass;
  }

  /** busRoutes.forEach (or tralRoutes.forEach): SELECT the route by number under the category and
      INSERT the stop under the row found, if any. */
  method InsertMatchedStations(db: Store.Database, categoryId: int, routes: seq<Route>) returns (r: Outcome)
    modifies db
    ensures Agrees(r, Build.InsertMatchedStations(old(db.Contents()), categoryId, routes), db.Contents())
  {
    var i := 0;
    while i < |routes|
      invariant 0 <= i <= |routes|
      invariant Build.InsertMatchedStations(db.Contents(), categoryId, routes[i..]) ==
                Build.InsertMatchedStations(old(db.Contents()), categoryId, routes)
    {
      assert routes[i..][0] == routes[i] && routes[i..][1..] == routes[i + 1..];
      var n := ParseNumber(routes[i].number);
      if n.Err? {
        return Fail(n.failure);
      }
      var found := FindBus(db.buses, n.value, categoryId);
      if found.Some? {
        db.InsertStation(routes[i], found.value.id);
      }
      i := i + 1;
    }
    r := Pass;
  }

  /** The statements of performFullParse after the CREATE TABLE statements, in order. */
  method Populate(db: Store.Database, src: Steps.Source) returns (r: Outcome)
    modifies db
    ensures Agrees(r, Build.Populate(old(db.Contents()), src), db.Contents())
  {
    if src.transportNames.Err? {
      return Fail(src.transportNames.failure);
    }
    InsertCategories(db, src.transportNames.value);
    var busCat := FindCategory(db.categories, Steps.BUS_CATEGORY);
    var tralCat := FindCategory(db.categories, Steps.TROLLEYBUS_CATEGORY);
    if busCat.None? || tralCat.None? {
      return Fail(EmptyResult);
    }
    if src.busNumbers.Err? {
      return Fail(src.busNumbers.failure);
    }
    r := InsertBuses(db, busCat.value.id, src.busNumbers.value);
    if r.Fail? {
      return;
    }
    if src.tralNumbers.Err? {
      return Fail(src.tralNumbers.failure);
    }
    r := InsertBuses(db, tralCat.value.id, src.tralNumbers.value);
    if r.Fail? {
      return;
    }
    if src.busRoutes.Err? {
      return Fail(src.busRoutes.failure);
    }
    r := InsertMatchedStations(db, busCat.value.id, src.busRoutes.value);
    if r.Fail? {
      return;
    }
    if src.tralRoutes.Err? {
      return Fail(src.tralRoutes.failure);
    }
    r := InsertMatchedStations(db, tralCat.value.id, src.tralRoutes.value);
    if r.Fail? {
      return;
    }
    r := InsertTimesFor(db, db.stations, src.busTime);
  }

  // ---------------------------------------------------------------- parseAndSaveToDb

  /** The first changedRoutes.forEach: SELECT the route by number under the category and run the
      three DELETE statements for the row found, if any. */
  method DeletePhase(db: Store.Database, categoryId: int, nums: seq<string>) returns (r: Outcome)
    modifies db
    ensures Agrees(r, Patch.DeletePhase(old(db.Contents()), categoryId, nums), db.Contents())
  {
    var i := 0;
    while i < |nums|
      invariant 0 <= i <= |nums|
      invariant Patch.DeletePhase(db.Contents(), categoryId, nums[i..]) == Patch.DeletePhase(old(db.Contents()), categoryId, nums)
    {
      assert nums[i..][0] == nums[i] && nums[i..][1..] == nums[i + 1..];
      var n := ParseNumber(nums[i]);
      if n.Err? {
        return Fail(n.failure);
      }
      var found := FindBus(db.buses, n.value, categoryId);
      if found.Some? {
        db.DeleteBus(found.value.id);
      }
      i := i + 1;
    }
    r := Pass;
  }

  /** The body of the second changedRoutes.forEach for one number. */
  method InsertRoute(db: Store.Database, categoryId: int, isBus: bool, number: string, src: Steps.Source) returns (r: Outcome)
    modifies db
    ensures Agrees(r, Patch.InsertRoute(old(db.Contents()), categoryId, isBus, number, src), db.Contents())
  {
    var n := ParseNumber(number);
    if n.Err? {
      return Fail(n.failure);
    }
    db.InsertBus(categoryId, n.value);
    var bus := FindBus(db.buses, n.value, categoryId);
    if bus.None? {
      return Fail(EmptyResult);
    }
    var routes := if isBus then src.busRoutes else src.tralRoutes;
    if routes.Err? {
      return Fail(routes.failure);
    }
    InsertStations(db, WithNumber(routes.value, number), bus.value.id);
    r := InsertTimesFor(db, StationsOf(db.stations, bus.value.id), src.busTime);
  }

  /** The second changedRoutes.forEach. */
  method InsertPhase(db: Store.Database, categoryId: int, isBus: bool, nums: seq<string>, src: Steps.Source) returns (r: Outcome)
    modifies db
    ensures Agrees(r, Patch.InsertPhase(old(db.Contents()), categoryId, isBus, nums, src), db.Contents())
  {
    var i := 0;
    while i < |nums|
      invariant 0 <= i <= |nums|
      invariant Patch.InsertPhase(db.Contents(), categoryId, isBus, nums[i..], src) ==
                Patch.InsertPhase(old(db.Contents()), categoryId, isBus, nums, src)
    {
      ghost var before := db.Contents();
      assert nums[i..] != [] && nums[i..][0] == nums[i] && nums[i..][1..] == nums[i + 1..];
      var step := InsertRoute(db, categoryId, isBus, nums[i], src);
      if step.Fail? {
        InsertPhaseThrows(before, categoryId, isBus, nums[i..], src, step.failure);
        return step;
      }
      InsertPhaseStep(before, categoryId, isBus, nums[i..], src, db.Contents());
      i := i + 1;
    }
    r := Pass;
  }

  /** A turn of the insert loop that completes leaves the rest of the loop to run. */
  lemma InsertPhaseStep(s: Snapshot, categoryId: int, isBus: bool, nums: seq<string>, src: Steps.Source, s1: Snapshot)
    requires nums != [] && Patch.InsertRoute(s, categoryId, isBus, nums[0], src) == Ok(s1)
    ensures Patch.InsertPhase(s, categoryId, isBus, nums, src) == Patch.InsertPhase(s1, categoryId, isBus, nums[1..], src)
  {
  }

  /** A turn of the insert loop that throws ends the loop with that exception. */
  lemma InsertPhaseThrows(s: Snapshot, categoryId: int, isBus: bool, nums: seq<string>, src: Steps.Source, f: Failure)
    requires nums != [] && Patch.InsertRoute(s, categoryId, isBus, nums[0], src) == Err(f)
    ensures Patch.InsertPhase(s, categoryId, isBus, nums, src) == Err(f)
  {
  }

  /** How the statements on the copy ended. */
  datatype Status = CategoryNotFound | Failed(failure: Failure) | Patched

  /** The statements parseAndSaveToDb runs on the copy: look the category up, then the two phases. */
  method Update(db: Store.Database, transportType: string, nums: seq<string>, src: Steps.Source) returns (r: Status)
    modifies db
    ensures var spec := Patch.Update(old(db.Contents()), transportType, nums, src);
      match r
      case CategoryNotFound => spec == Patch.CategoryNotFound && db.Contents() == old(db.Contents())
      case Failed(f) => spec == Patch.Failed(f)
      case Patched => spec == Patch.Patched(db.Contents())
  {
    var cat := FindCategory(db.categories, transportType);
    if cat.None? {
      return CategoryNotFound;
    }
    var deleted := DeletePhase(db, cat.value.id, nums);
    if deleted.Fail? {
      return Failed(deleted.failure);
    }
    var inserted := InsertPhase(db, cat.value.id, transportType == Steps.BUS_CATEGORY, nums, src);
    if inserted.Fail? {
      return Failed(inserted.failure);
    }
    r := Patched;
  }
}
